=== FILE: README.md ===
# Ambience dashboard: task views and task store, in Dafny

This project models the task-tracking core of the Ambience project dashboard.
A FastAPI backend keeps projects, their tasks and users. A React front end
derives the same few views from each project's ordered task list:

- the current task, which is the first task whose status is not "Completed";
- the completion percentage `Math.round(100 · completed / total)`, with 0 for an empty list;
- pending counts;
- the fleet-wide status and role tallies;
- the "My Tasks" selection.

The model pins each derivation down once (`TaskViews`), over generic
sequence vocabulary (`Seqs`: filter, count, find). It then proves that each
page's formula agrees with it.

The backend routes are total functions over an abstract database (`TaskStore`):
tables are sequences in insertion order, and each table has an id counter.
Each route returns either the new store or the HTTP error it raises. A store
invariant `Wf` covers the following, and every mutating route preserves it:

- unique, positive project, task and user ids;
- unique usernames;
- every task belonging to an existing project.

`Scenarios` joins the two sides:

- a project just created and then fetched shows 0% and "Receive Order";
- marking an open task Completed and reloading shows exactly one more completed task and a percentage that has not gone down.

The pages' network requests are parameters. Their outcome is passed in as an
`Option` or a `bool` (failure = `None`/`false`), and each workflow is modelled
as "on success → new state, on failure → old state".

Task status is `Pending | InProgress | WaitingForApproval | Completed | Blocked | Other(text)`.
The backend stores any string it is sent (`Domain.Parse` is total), and the
pages compare the status string itself, exactly as JavaScript's `===` does.
Percentages are exact integer rounding, half up: `(200c + t) / (2t)`.

Files: `results.dfy`, `seqs.dfy`, `domain.dfy`, `task_views.dfy`,
`projects_page.dfy`, `project_details_page.dfy`, `analytics_page.dfy`,
`my_tasks_page.dfy`, `notifications_page.dfy`, `task_store.dfy`, `scenarios.dfy`.

## Model

| member | source | states |
|---|---|---|
| Domain.Parse | dashboard-backend/main.py:117-122 | Any status string is accepted and read back unchanged; it is one of the five known statuses exactly when it is one of the five strings. |
| TaskViews.OpenCount | dashboard-frontend/src/pages/Tasks.jsx:46 | The pending count is the list length minus the number of Completed tasks, so it never exceeds the length. |
| TaskViews.CountsPartition | dashboard-frontend/src/pages/Analytics.jsx:26 | Completed and not-Completed tasks partition the list. |
| TaskViews.Progress | dashboard-frontend/src/pages/Projects.jsx:53-55 | 0 for an empty list; otherwise the integer nearest to 100·completed/total, half up; never above 100. |
| TaskViews.RoundPercent | dashboard-frontend/src/pages/Projects.jsx:55 | The rounded percentage is the integer whose half-open bracket contains 100·part/whole, and it is at most 100. |
| TaskViews.NoneCompletedIsZero | dashboard-frontend/src/pages/Projects.jsx:53-55 | A list with no Completed task shows 0%. |
| TaskViews.AllCompletedIsFull | dashboard-frontend/src/pages/Projects.jsx:53-56 | A non-empty all-Completed list shows 100% and has no current task. |
| TaskViews.FullIffAllCompleted | dashboard-frontend/src/pages/Projects.jsx:53-55 | Below 200 tasks, 100% is shown exactly when every task is Completed. |
| TaskViews.FullWithOneOpenTask | dashboard-frontend/src/pages/Projects.jsx:53-56 | From 200 tasks up, one open task still rounds to 100% while a current task is shown, so the converse fails. |
| TaskViews.RoundShortOfWhole | dashboard-frontend/src/pages/Projects.jsx:55 | With fewer than 200 tasks, any incomplete share rounds below 100. |
| TaskViews.RoundOneShort | dashboard-frontend/src/pages/Projects.jsx:55 | With 200 or more tasks, all but one complete rounds to 100. |
| TaskViews.RoundMonotone | dashboard-frontend/src/pages/Projects.jsx:55 | One more completed task never lowers the rounded percentage. |
| TaskViews.CompletingNeverLowersProgress | dashboard-frontend/src/pages/Projects.jsx:53-55 | Turning one open task into a Completed one adds exactly one to the completed count and never lowers the percentage. |
| TaskViews.CurrentIndex | dashboard-frontend/src/pages/Projects.jsx:56 | The position of the first task that is not Completed; none exactly when every task is Completed. |
| TaskViews.CurrentTask | dashboard-frontend/src/pages/Tasks.jsx:36 | `find` of the first not-Completed task: none exactly when all are Completed, otherwise the first open task, every task before it being Completed. |
| TaskViews.FirstOpenIsCurrent | dashboard-frontend/src/pages/Projects.jsx:56 | When the first task is open, it is the current task. |
| TaskViews.ThreeTaskExample | dashboard-frontend/src/pages/Projects.jsx:53-56 | Statuses Pending, In Progress, Completed give 33% and the Pending task as current. |
| ProjectsPage.CardOf | dashboard-frontend/src/pages/Projects.jsx:53-61 | The card's percentage is the list's rounded completed share, within 0..100 and 0 when empty. "All Completed" is shown exactly when every task is Completed; otherwise the name shown is that of the first open task. |
| ProjectsPage.TrimStart | dashboard-frontend/src/pages/Projects.jsx:24 | Drops exactly the leading JavaScript white space. |
| ProjectsPage.Trim | dashboard-frontend/src/pages/Projects.jsx:24 | `trim()` never lengthens the name, and what is left neither starts nor ends with white space. |
| ProjectsPage.TrimIsSlice | dashboard-frontend/src/pages/Projects.jsx:24 | `trim()` is a contiguous slice of the name: it starts where the leading white space ends, and everything cut from either end is white space. |
| ProjectsPage.TrimEnd | dashboard-frontend/src/pages/Projects.jsx:24 | Drops exactly the trailing JavaScript white space. |
| ProjectsPage.TrimEmptyIffBlank | dashboard-frontend/src/pages/Projects.jsx:24 | `trim()` gives the empty string exactly when the name is all white space (the empty name included). |
| ProjectsPage.AddProject | dashboard-frontend/src/pages/Projects.jsx:23-32 | Blank name: no request, nothing changes. Otherwise the untrimmed name is posted. Failure leaves the state as it was. Success clears the input and takes the re-fetched list when that reload succeeds. |
| ProjectDetailsPage.StatusOptionsAreTheFive | dashboard-frontend/src/pages/ProjectDetails.jsx:82-86 | The drop-down offers exactly the five known status strings, each once, each read as the matching known status. |
| ProjectDetailsPage.ViewOf | dashboard-frontend/src/pages/ProjectDetails.jsx:17-28 | The stored tasks are the payload's, unchanged. The "All tasks completed!" sentinel (`None`) appears exactly when no task is open. |
| ProjectDetailsPage.ViewCurrentIsFirstOpen | dashboard-frontend/src/pages/ProjectDetails.jsx:20-21 | The first task of the filtered list is the `find` of the other pages. It equals the project card's current task. |
| ProjectDetailsPage.FetchProject | dashboard-frontend/src/pages/ProjectDetails.jsx:15-33 | A failed fetch changes nothing. A successful one stores the payload's tasks and ends loading. Loading ends only through a success. |
| ProjectDetailsPage.LoadingEndsOnlyOnSuccess | dashboard-frontend/src/pages/ProjectDetails.jsx:29-32 | Over any run of fetches, starting from loading, the page is still loading exactly when no fetch has succeeded. Failures leave the state untouched, and the last success decides the project shown. |
| ProjectDetailsPage.OpeningThePage | dashboard-frontend/src/pages/ProjectDetails.jsx:8-32 | From the initial state, "Loading..." with no project stays exactly until some fetch succeeds. |
| ProjectDetailsPage.HandleStatusChange | dashboard-frontend/src/pages/ProjectDetails.jsx:35-42 | The chosen string is sent as is. A reload happens exactly when the PATCH succeeds. Failure leaves the state unchanged. After a successful PATCH a successful reload shows the reloaded project, and a failed reload leaves the state as it was. |
| ProjectDetailsPage.ChangeNeverPatchesLocally | dashboard-frontend/src/pages/ProjectDetails.jsx:37-38 | After a successful change the shown project depends only on the reload, never on the previous local copy. |
| AnalyticsPage.AllTasks | dashboard-frontend/src/pages/Analytics.jsx:24-25 | `flatMap` of the task lists: its length is the sum of the lengths, and it holds exactly the projects' tasks. |
| AnalyticsPage.FleetCountIsSum | dashboard-frontend/src/pages/Analytics.jsx:24-26 | A fleet-wide count is the sum of the per-project counts. |
| AnalyticsPage.MetricsOf | dashboard-frontend/src/pages/Analytics.jsx:24-26 | Total tasks is the sum of the lengths; pending is total minus Completed; no project is longer than the total. |
| AnalyticsPage.OneTaskBuckets | dashboard-frontend/src/pages/Analytics.jsx:28-34 | A task falls in at most one bucket. It falls in Completed exactly when it is Completed, and in exactly one bucket when its status is known. |
| AnalyticsPage.StatusCountsOf | dashboard-frontend/src/pages/Analytics.jsx:28-34 | The Completed bucket is the number of Completed tasks, and no bucket exceeds the number of tasks. |
| AnalyticsPage.BucketsPartitionTasks | dashboard-frontend/src/pages/Analytics.jsx:26-34 | The Completed bucket equals the Completed count. The four other buckets sum to at most the pending count, and to exactly it when every status is known. |
| AnalyticsPage.BucketsWithinTotal | dashboard-frontend/src/pages/Analytics.jsx:24-34 | The five buckets sum to at most `totalTasks`, and to exactly it when every status is known. The open buckets never exceed `pendingTasks`. |
| AnalyticsPage.Bump | dashboard-frontend/src/pages/Analytics.jsx:38 | One tally step adds the role as a key if new and raises its count by one, leaving every other role's count and the key distinctness intact. |
| AnalyticsPage.RoleCounts | dashboard-frontend/src/pages/Analytics.jsx:36-39 | Every role carried by some task is a key, and nothing else is. Each count is that role's number of tasks, and the counts sum to the number of tasks. |
| AnalyticsPage.BarPercentAsWritten | dashboard-frontend/src/pages/Analytics.jsx:82-83 | The bar as written: for a non-empty project it equals the card percentage. For an empty project in a non-empty fleet it is NaN (`None`). |
| AnalyticsPage.EmptyProjectBarIsNaN | dashboard-frontend/src/pages/Analytics.jsx:82-83 | A concrete fleet whose empty project gets a NaN bar. |
| AnalyticsPage.BarPercent | dashboard-frontend/src/pages/Analytics.jsx:82-83 | The corrected bar equals the project card's percentage (0 for an empty project). |
| AnalyticsPage.BarPercentAgrees | dashboard-frontend/src/pages/Analytics.jsx:82-83 | Wherever the page's formula is defined it equals the corrected bar. It is undefined exactly for an empty project in a non-empty fleet. |
| AnalyticsPage.Bars | dashboard-frontend/src/pages/Analytics.jsx:81-97 | The corrected bar list: one bar per project, in order, each equal to that project's card percentage. The page as written differs only for an empty project in a non-empty fleet, where it shows "NaN%" (see Findings). |
| MyTasksPage.FilteredTasks | dashboard-frontend/src/pages/Tasks.jsx:36-41 | Keeps only tasks of the group that are In Progress or carry the current task's id. It keeps every In Progress task and every task carrying the current id, the current task itself included. |
| MyTasksPage.FilteredKeepsOrder | dashboard-frontend/src/pages/Tasks.jsx:39-41 | The selection is an order-preserving subsequence of the group's tasks. |
| MyTasksPage.NegativeIdGroupIsShown | dashboard-frontend/src/pages/Tasks.jsx:36-44 | A group holding only a Completed task with id -1 is not skipped: the task matches the `-1` stand-in. So the skip rule needs non-negative ids. |
| MyTasksPage.SkippedIffAllCompleted | dashboard-frontend/src/pages/Tasks.jsx:36-44 | With non-negative ids, a group is skipped exactly when all its tasks are Completed, the empty group included. |
| MyTasksPage.CardOf | dashboard-frontend/src/pages/Tasks.jsx:46-62 | The card is keyed, toggled and titled by its own project id and name. It reads "pending / total", where pending is the not-Completed count and at most the total, and it lists the group's filtered tasks. |
| MyTasksPage.Cards | dashboard-frontend/src/pages/Tasks.jsx:34-44 | Groups with nothing to show are skipped; every group with something to show gets its card, and every card is the card of such a group. |
| MyTasksPage.CardsKeepOrder | dashboard-frontend/src/pages/Tasks.jsx:34-44 | The cards are exactly the cards of the groups with something to show, in the order the groups came. |
| MyTasksPage.ToggleExpand | dashboard-frontend/src/pages/Tasks.jsx:21-26 | Negates only that project's flag, with a missing flag read as false; every other flag is unchanged. |
| MyTasksPage.ToggleTwice | dashboard-frontend/src/pages/Tasks.jsx:22-25 | Toggling twice restores the flag's boolean value and touches no other project. |
| NotificationsPage.WithoutId | dashboard-frontend/src/pages/Notifications.jsx:23 | No entry with the id remains, and every other entry does. The length drops by the number of entries with that id. |
| NotificationsPage.WithoutIdKeepsOrder | dashboard-frontend/src/pages/Notifications.jsx:23 | The remaining entries keep their relative order. |
| NotificationsPage.WithoutIdIdempotent | dashboard-frontend/src/pages/Notifications.jsx:23 | Removing an absent id changes nothing; removing twice equals removing once. |
| NotificationsPage.WithoutPresentUniqueId | dashboard-frontend/src/pages/Notifications.jsx:23 | With unique ids, removing a present id drops exactly one entry. |
| NotificationsPage.HandleDelete | dashboard-frontend/src/pages/Notifications.jsx:20-27 | A failed DELETE leaves the list unchanged. A successful one removes that id and keeps every other entry: the survivors come only from the list, in their order, and there are as many fewer as there were matches. |
| NotificationsPage.DeleteExample | dashboard-frontend/src/pages/Notifications.jsx:20-27 | Deleting id 3 from entries 3 and 5 leaves entry 5. |
| TaskStore.TemplateShape | dashboard-backend/main.py:21-37 | The template has fifteen steps, starting with "Receive Order". Its roles are exactly the eight distinct role labels. |
| TaskStore.GenerateDefaultTasks | dashboard-backend/main.py:20-47 | Appends exactly fifteen rows, in template order, all Pending and of the given project, with fresh ids. Every existing row is kept. |
| TaskStore.CreateProject | dashboard-backend/main.py:91-101 | Inserts one project with a fresh id and only its name set, then its fifteen template tasks. |
| TaskStore.CreateProjectPreservesWf | dashboard-backend/main.py:91-101 | Creating a project keeps the store invariant. |
| TaskStore.FindTask | dashboard-backend/main.py:118 | `first()` by id: none exactly when no task has the id; otherwise the first row with it. |
| TaskStore.FindProject | dashboard-backend/main.py:130 | `first()` by id: none exactly when no project has the id; otherwise the first row with it. |
| TaskStore.UpdateTaskStatus | dashboard-backend/main.py:116-125 | 404 "Task not found" exactly when no task has the id. Otherwise the first such task's status becomes the given string, with no check, and nothing else changes. |
| TaskStore.UpdatePreservesWf | dashboard-backend/main.py:116-125 | An update keeps the invariant. Under it, the task with the id reads back the new status, and every other task is unchanged. |
| TaskStore.PayloadOf | dashboard-backend/main.py:134-141 | The payload holds exactly the project's tasks, as id/name/status/role, one per row, in table order. |
| TaskStore.GetProject | dashboard-backend/main.py:128-141 | 404 "Project not found" exactly for an unknown id. Otherwise the project's name, and exactly its tasks projected to id/name/status/role, in table order. |
| TaskStore.PayloadInTableOrder | dashboard-backend/main.py:137-140 | The fetched tasks are an order-keeping selection from the summaries of the whole task table, so the first open task the pages show is the first in table order. |
| TaskStore.ListProjects | dashboard-backend/main.py:104-115 | One payload per project, in table order. |
| TaskStore.ListMatchesGet | dashboard-backend/main.py:104-141 | In a well-formed store each list entry equals the single-project route's answer. |
| TaskStore.DeleteProject | dashboard-backend/main.py:143-150 | 404 exactly for an unknown id. Otherwise one project goes, with all of its tasks (the delete-orphan cascade, models.py line 26), and every other task stays. |
| TaskStore.DeleteProjectPreservesWf | dashboard-backend/models.py:26 | Deleting a project keeps the invariant, and neither the project nor any of its tasks remains. |
| TaskStore.DeleteTask | dashboard-backend/main.py:166-173 | 404 exactly for an unknown id; otherwise exactly the first task with the id is removed, order kept. |
| TaskStore.DeleteTaskPreservesWf | dashboard-backend/main.py:166-173 | Deleting keeps the invariant. Under it, no task with the id remains and every other task does. |
| TaskStore.Register | dashboard-backend/main.py:62-75 | 400 "Username already exists" exactly when the name is taken. Otherwise exactly one user is added, and the username set grows by that name. |
| TaskStore.RegisterPreservesWf | dashboard-backend/main.py:62-75 | Registering keeps the invariant: usernames and user ids stay unique, and the new user's id differs from every earlier one. |
| Scenarios.NewProjectPayload | dashboard-backend/main.py:91-101 | Fetching a project just created returns its name and its fifteen template tasks. |
| Scenarios.NewProjectStartsAtReceiveOrder | dashboard-backend/main.py:93-99 | A new project has fifteen Pending tasks and shows 0%. "Receive Order" is its current task on both the project card and the details page. |
| Scenarios.CompletingThenReloading | dashboard-frontend/src/pages/ProjectDetails.jsx:35-42 | Marking an open task Completed through the backend and reloading has three effects: the page shows the reloaded project, the project has one more Completed task, and its percentage has not gone down. |
| Scenarios.ServedIdsArePositive | dashboard-frontend/src/pages/Tasks.jsx:40-44 | Ids in a `get_project` payload are positive (the `/my-tasks` payload the page actually reads is not part of this model). So the `-1` stand-in never matches, and a served group is skipped exactly when all its tasks are Completed. |

## Left out

- Network requests, `useEffect` fetching, and the interleaving of concurrent responses. Each request's outcome is a parameter.
- TaskViews.RoundPercent: uses exact rational rounding, half up. JavaScript first computes `(completed / total) * 100` in floating point, which may land on the other side of an exact .5 boundary.
- The floating-point bar width (`width: ${progress}%`) in Analytics.jsx is not modelled; only the rounded label is.
- ProjectsPage.AddProject: the name is interpolated into the query string without URL encoding. The model sends the raw string and does not model what the server decodes.
- ProjectDetailsPage.HandleStatusChange: `newStatus` is likewise interpolated unencoded into the query string.
- The backend does not restrict status to the five strings; the code stores whatever string arrives. The model follows the code, with `Other(text)` for anything else. A requirement that out-of-set statuses be rejected is not what the code does.
- TaskStore.UpdateTaskStatus: returns the new store, not the updated task record echoed by the route. The pages ignore that body.
- TaskStore.GetProject: the order of `project.tasks` (a relationship without `order_by`) is taken to be table order.
- TaskStore.CreateProject: the id counters never reuse ids. The model does not claim SQLite's behaviour after the highest row is deleted.
- Password hashing, `login`, `get_current_user` and JWT handling are left out. The hash is an input to `Register`, and the `auth` module is not part of this model.
- `create_task` and `get_tasks` are left out: no page in the modelled core calls them.
- Full project creation with role assignments, the drawing-version update, and the `/my-tasks` and `/notifications` endpoints are left out. Their implementation is not part of this model; the pages consume their payloads as given.
- `ai_router.py` and the AI assistant page: a proxy to an external service.
- Session and commit handling, `database.py`, CORS, routing, login/register forms and chart rendering.
- AnalyticsPage.RoleCounts: JavaScript object key order (integer-like keys first) is not claimed. The tally is an insertion-ordered association list, and only its keys and counts are stated. The page tallies into a plain `{}`, so a role naming an `Object.prototype` member behaves differently: for "toString" or "constructor" the first tally concatenates the inherited function's text with `1`, and for "__proto__" no key is created at all. The model counts every role string as an own key, which matches the page only for roles that are not such names.
- The navigation bar, layout and route-guard components: display and routing only.

## Findings

| source | as written | input that shows it | evidently intended | confidence | as-written member | corrected member |
|---|---|---|---|---|---|---|
| dashboard-frontend/src/pages/Analytics.jsx:83 | The bar guards on the fleet's `totalTasks === 0`, then divides by the project's own `project.tasks.length`. | A project with no tasks next to a project with one task: `0 / 0 * 100` is NaN, so the label reads "NaN%". | Guard on the project's own length, giving 0% for an empty project, as the project cards do. | not executed | AnalyticsPage.BarPercentAsWritten (exhibited by AnalyticsPage.EmptyProjectBarIsNaN) | AnalyticsPage.BarPercent (agreement by AnalyticsPage.BarPercentAgrees; used by AnalyticsPage.Bars) |

=== FILE: analytics_page.dfy ===
/** The analytics page (`Analytics.jsx`): fleet-wide counts over the tasks
    of every project, per-status and per-role tallies, and one progress bar
    per project. */
module AnalyticsPage {
  import opened Results
  import opened Domain
  import opened Seqs
  import opened TaskViews
  import ProjectsPage

  /** `projects.flatMap(p => p.tasks)`: every task, project by project, in order. */
  function AllTasks(ps: seq<ProjectPayload>): (r: seq<Task>)
    ensures |r| == TaskTotal(ps)
    ensures forall i :: 0 <= i < |ps| ==> |ps[i].tasks| <= |r|
    ensures forall i, t :: 0 <= i < |ps| && t in ps[i].tasks ==> t in r
    ensures forall t :: t in r ==> exists i :: 0 <= i < |ps| && t in ps[i].tasks
    decreases |ps|
  {
    if |ps| == 0 then []
    else
      var rest := AllTasks(ps[1..]);
      assert forall i :: 1 <= i < |ps| ==> ps[i] == ps[1..][i - 1];
      ps[0].tasks + rest
  }

  /** The sum of the projects' task-list lengths. */
  function TaskTotal(ps: seq<ProjectPayload>): nat
    decreases |ps|
  {
    if |ps| == 0 then 0 else |ps[0].tasks| + TaskTotal(ps[1..])
  }

  /** The sum over the projects of a count taken in each project. */
  function SumOver(f: Task -> bool, ps: seq<ProjectPayload>): nat
    decreases |ps|
  {
    if |ps| == 0 then 0 else Count(f, ps[0].tasks) + SumOver(f, ps[1..])
  }

  /** A fleet-wide count is the sum of the per-project counts. */
  lemma {:induction false} FleetCountIsSum(f: Task -> bool, ps: seq<ProjectPayload>)
    ensures Count(f, AllTasks(ps)) == SumOver(f, ps)
    decreases |ps|
  {
    if |ps| > 0 {
      CountAppend(f, ps[0].tasks, AllTasks(ps[1..]));
      FleetCountIsSum(f, ps[1..]);
    }
  }

  /** The three metric cards: number of projects, `totalTasks`, `pendingTasks`. */
  datatype Metrics = Metrics(projects: nat, totalTasks: nat, pendingTasks: nat)

  function MetricsOf(ps: seq<ProjectPayload>): (m: Metrics)
    ensures m.projects == |ps|
    ensures m.totalTasks == TaskTotal(ps)
    ensures m.pendingTasks == m.totalTasks - CompletedCount(AllTasks(ps))
    ensures m.pendingTasks <= m.totalTasks
    ensures forall i :: 0 <= i < |ps| ==> |ps[i].tasks| <= m.totalTasks
  {
    var all := AllTasks(ps);
    Metrics(|ps|, |all|, OpenCount(all))
  }

  /** `t.status === text`. */
  function HasLabel(text: string): Task -> bool
  {
    (t: Task) => Label(t.status) == text
  }

  /** The five buckets of the status pie chart, in the page's key order. */
  datatype StatusCounts = StatusCounts(pending: nat, inProgress: nat, completed: nat, blocked: nat, waiting: nat)

  function StatusCountsOf(ts: seq<Task>): (r: StatusCounts)
    ensures r.completed == CompletedCount(ts)
    ensures r.pending <= |ts| && r.inProgress <= |ts| && r.blocked <= |ts| && r.waiting <= |ts|
  {
    FilterExt(HasLabel("Completed"), IsCompleted, ts);
    StatusCounts(
      Count(HasLabel("Pending"), ts),
      Count(HasLabel("In Progress"), ts),
      Count(HasLabel("Completed"), ts),
      Count(HasLabel("Blocked"), ts),
      Count(HasLabel("Waiting for Approval"), ts))
  }

  /** The four buckets of statuses other than Completed. */
  function OpenBuckets(c: StatusCounts): nat
  {
    c.pending + c.inProgress + c.blocked + c.waiting
  }

  /** Every task's status is one of the five strings the page knows. */
  ghost predicate AllKnown(ts: seq<Task>)
  {
    forall i :: 0 <= i < |ts| ==> Label(ts[i].status) in KnownLabels
  }

  /** 1 for true, 0 for false. */
  function Ind(b: bool): nat
  {
    if b then 1 else 0
  }

  /** One task falls in at most one bucket: in the Completed bucket exactly
      when it is completed, in one of the other four only when it is open,
      and in one of them whenever it is open with a known status. */
  lemma OneTaskBuckets(t: Task)
    ensures Ind(HasLabel("Completed")(t)) == Ind(IsCompleted(t))
    ensures Ind(HasLabel("Pending")(t)) + Ind(HasLabel("In Progress")(t)) + Ind(HasLabel("Blocked")(t))
      + Ind(HasLabel("Waiting for Approval")(t)) <= Ind(IsOpen(t))
    ensures Label(t.status) in KnownLabels ==>
      Ind(HasLabel("Pending")(t)) + Ind(HasLabel("In Progress")(t)) + Ind(HasLabel("Blocked")(t))
      + Ind(HasLabel("Waiting for Approval")(t)) == Ind(IsOpen(t))
  {
  }

  /** Each bucket is the sum of its head's share and the tail's bucket. */
  lemma BucketsCons(ts: seq<Task>)
    requires |ts| > 0
    ensures var c, c' := StatusCountsOf(ts), StatusCountsOf(ts[1..]);
      && c.pending == Ind(HasLabel("Pending")(ts[0])) + c'.pending
      && c.inProgress == Ind(HasLabel("In Progress")(ts[0])) + c'.inProgress
      && c.completed == Ind(HasLabel("Completed")(ts[0])) + c'.completed
      && c.blocked == Ind(HasLabel("Blocked")(ts[0])) + c'.blocked
      && c.waiting == Ind(HasLabel("Waiting for Approval")(ts[0])) + c'.waiting
  {
    CountCons(HasLabel("Pending"), ts);
    CountCons(HasLabel("In Progress"), ts);
    CountCons(HasLabel("Completed"), ts);
    CountCons(HasLabel("Blocked"), ts);
    CountCons(HasLabel("Waiting for Approval"), ts);
  }

  /** The buckets are disjoint (a task matches at most one of the five
      strings): the Completed bucket is the completed count, and the other
      four together count at most the open tasks, exactly them when every
      status is one of the five strings. */
  lemma {:induction false} BucketsPartitionTasks(ts: seq<Task>)
    ensures StatusCountsOf(ts).completed == CompletedCount(ts)
    ensures OpenBuckets(StatusCountsOf(ts)) <= OpenCount(ts)
    ensures AllKnown(ts) ==> OpenBuckets(StatusCountsOf(ts)) == OpenCount(ts)
    decreases |ts|
  {
    if |ts| > 0 {
      var tail := ts[1..];
      BucketsPartitionTasks(tail);
      BucketsCons(ts);
      OneTaskBuckets(ts[0]);
      CountCons(IsCompleted, ts);
      CountsPartition(ts);
      CountsPartition(tail);
      assert OpenCount(ts) == Ind(IsOpen(ts[0])) + OpenCount(tail);
      if AllKnown(ts) {
        assert Label(ts[0].status) in KnownLabels;
        assert AllKnown(tail) by {
          forall i | 0 <= i < |tail|
            ensures Label(tail[i].status) in KnownLabels
          {
            assert tail[i] == ts[i + 1];
          }
        }
      }
    }
  }

  /** The five buckets sum to at most `totalTasks`, to exactly it when every
      status is one of the five strings, and the four non-Completed buckets
      never exceed `pendingTasks`. */
  lemma BucketsWithinTotal(ps: seq<ProjectPayload>)
    ensures var c := StatusCountsOf(AllTasks(ps));
      c.pending + c.inProgress + c.completed + c.blocked + c.waiting <= MetricsOf(ps).totalTasks
    ensures var c := StatusCountsOf(AllTasks(ps));
      AllKnown(AllTasks(ps)) ==>
        c.pending + c.inProgress + c.completed + c.blocked + c.waiting == MetricsOf(ps).totalTasks
    ensures OpenBuckets(StatusCountsOf(AllTasks(ps))) <= MetricsOf(ps).pendingTasks
  {
    BucketsPartitionTasks(AllTasks(ps));
  }

  /** One bar of the role chart: a role label and the number of its tasks. */
  datatype RoleCount = RoleCount(role: string, count: nat)

  /** `t.role === role`. */
  function HasRole(role: string): Task -> bool
  {
    (t: Task) => t.role == role
  }

  /** The roles that are keys of the tally. */
  function Keys(entries: seq<RoleCount>): set<string>
  {
    set e | e in entries :: e.role
  }

  /** No role is a key twice. */
  ghost predicate DistinctRoles(entries: seq<RoleCount>)
  {
    forall i, j :: 0 <= i < j < |entries| ==> entries[i].role != entries[j].role
  }

  /** `roleCounts[role] || 0`: the tally for a role, 0 when it is not a key. */
  function CountFor(entries: seq<RoleCount>, role: string): nat
    decreases |entries|
  {
    if |entries| == 0 then 0
    else if entries[0].role == role then entries[0].count
    else CountFor(entries[1..], role)
  }

  /** The sum of the tallies. */
  function SumOf(entries: seq<RoleCount>): nat
    decreases |entries|
  {
    if |entries| == 0 then 0 else entries[0].count + SumOf(entries[1..])
  }

  /** How a tally built from a first entry and the rest reads. */
  lemma TallyCons(e: RoleCount, rest: seq<RoleCount>)
    ensures ([e] + rest)[0] == e && ([e] + rest)[1..] == rest
    ensures Keys([e] + rest) == {e.role} + Keys(rest)
    ensures SumOf([e] + rest) == e.count + SumOf(rest)
    ensures forall role :: CountFor([e] + rest, role) == if e.role == role then e.count else CountFor(rest, role)
    ensures DistinctRoles([e] + rest) <==> DistinctRoles(rest) && e.role !in Keys(rest)
  {
    var s := [e] + rest;
    assert s[1..] == rest;
    if DistinctRoles(s) {
      forall x | x in rest
        ensures x.role != e.role
      {
        var j :| 0 <= j < |rest| && rest[j] == x;
        assert s[0] == e && s[j + 1] == x;
      }
    }
    if DistinctRoles(rest) && e.role !in Keys(rest) {
      forall i, j | 0 <= i < j < |s|
        ensures s[i].role != s[j].role
      {
        assert s[j] == rest[j - 1];
        if i > 0 { assert s[i] == rest[i - 1]; }
      }
    }
  }

  /** `roleCounts[role] = (roleCounts[role] || 0) + 1`: an existing key keeps
      its place, a new key goes last (a JavaScript object's insertion order). */
  function Bump(entries: seq<RoleCount>, role: string): (r: seq<RoleCount>)
    requires DistinctRoles(entries)
    ensures DistinctRoles(r)
    ensures Keys(r) == Keys(entries) + {role}
    ensures CountFor(r, role) == CountFor(entries, role) + 1
    ensures forall other :: other != role ==> CountFor(r, other) == CountFor(entries, other)
    ensures SumOf(r) == SumOf(entries) + 1
    decreases |entries|
  {
    if |entries| == 0 then
      TallyCons(RoleCount(role, 1), []);
      [RoleCount(role, 1)]
    else
      var head, tail := entries[0], entries[1..];
      assert entries == [head] + tail;
      TallyCons(head, tail);
      if head.role == role then
        TallyCons(RoleCount(role, head.count + 1), tail);
        [RoleCount(role, head.count + 1)] + tail
      else
        var rest := Bump(tail, role);
        TallyCons(head, rest);
        [head] + rest
  }

  /** One more task of the prefix: its role becomes a key and its role's
      count grows by one, every other count staying put. */
  lemma TallyStep(ts: seq<Task>, i: nat)
    requires i < |ts|
    ensures (set t | t in ts[..i + 1] :: t.role) == (set t | t in ts[..i] :: t.role) + {ts[i].role}
    ensures forall other ::
      Count(HasRole(other), ts[..i + 1]) == Count(HasRole(other), ts[..i]) + (if other == ts[i].role then 1 else 0)
  {
    assert ts[..i + 1] == ts[..i] + [ts[i]];
    forall other
      ensures Count(HasRole(other), ts[..i + 1]) == Count(HasRole(other), ts[..i]) + (if other == ts[i].role then 1 else 0)
    {
      CountAppend(HasRole(other), ts[..i], [ts[i]]);
    }
  }

  /** The `forEach` loop that builds `roleCounts`: one key per role carried by
      some task, each with the number of tasks carrying it, summing to `totalTasks`. */
  method RoleCounts(ts: seq<Task>) returns (counts: seq<RoleCount>)
    ensures DistinctRoles(counts)
    ensures Keys(counts) == set t | t in ts :: t.role
    ensures forall role :: CountFor(counts, role) == Count(HasRole(role), ts)
    ensures SumOf(counts) == |ts|
  {
    counts := [];
    var i := 0;
    while i < |ts|
      invariant 0 <= i <= |ts|
      invariant DistinctRoles(counts)
      invariant Keys(counts) == set t | t in ts[..i] :: t.role
      invariant forall role :: CountFor(counts, role) == Count(HasRole(role), ts[..i])
      invariant SumOf(counts) == i
    {
      counts := Bump(counts, ts[i].role);
      TallyStep(ts, i);
      i := i + 1;
    }
    assert ts[..i] == ts;
  }

  /** The width of a project's bar as `Analytics.jsx` computes it: the guard
      tests the fleet's `totalTasks`, not the project's own length, so a
      project without tasks in a fleet with tasks divides 0 by 0. `None`
      stands for the resulting NaN. */
  function BarPercentAsWritten(totalTasks: nat, p: ProjectPayload): (r: Option<nat>)
    requires |p.tasks| <= totalTasks
    ensures totalTasks > 0 && |p.tasks| == 0 ==> r.None?
    ensures |p.tasks| > 0 ==> r == Some(ProjectsPage.CardOf(p).progress)
  {
    if totalTasks == 0 then Some(0)
    else if |p.tasks| == 0 then None
    else Some(RoundPercent(CompletedCount(p.tasks), |p.tasks|))
  }

  /** A fleet with an empty project next to a project with one task shows
      "NaN%" on the empty project's bar. */
  lemma EmptyProjectBarIsNaN(t: Task)
    ensures var ps := [ProjectPayload(1, "A", []), ProjectPayload(2, "B", [t])];
      BarPercentAsWritten(MetricsOf(ps).totalTasks, ps[0]).None?
  {
    var ps := [ProjectPayload(1, "A", []), ProjectPayload(2, "B", [t])];
    assert ps[1..] == [ProjectPayload(2, "B", [t])];
    assert ps[1..][1..] == [];
    assert TaskTotal(ps[1..][1..]) == 0;
    assert TaskTotal(ps[1..]) == 1;
    assert TaskTotal(ps) == 1;
  }

  /** The bar width guarded by the project's own length, as the project cards
      do: always the card's percentage, 0 for a project without tasks. */
  function BarPercent(p: ProjectPayload): (r: nat)
    ensures r == ProjectsPage.CardOf(p).progress
    ensures r <= 100
    ensures |p.tasks| == 0 ==> r == 0
  {
    Progress(p.tasks)
  }

  /** Wherever the page's own formula is defined it agrees with the corrected
      bar; it only differs on empty projects of a non-empty fleet. */
  lemma BarPercentAgrees(ps: seq<ProjectPayload>, i: nat)
    requires i < |ps|
    ensures BarPercentAsWritten(MetricsOf(ps).totalTasks, ps[i]).Some? ==>
      BarPercentAsWritten(MetricsOf(ps).totalTasks, ps[i]).value == BarPercent(ps[i])
    ensures BarPercentAsWritten(MetricsOf(ps).totalTasks, ps[i]).None? <==>
      |ps[i].tasks| == 0 && MetricsOf(ps).totalTasks > 0
  {
  }

  /** The bars of the progress section, one per project in order. */
  function Bars(ps: seq<ProjectPayload>): (r: seq<nat>)
    ensures |r| == |ps|
    ensures forall i :: 0 <= i < |ps| ==> r[i] == ProjectsPage.CardOf(ps[i]).progress
  {
    seq(|ps|, i requires 0 <= i < |ps| => BarPercent(ps[i]))
  }
}

=== FILE: domain.dfy ===
/** The records the backend stores and the pages receive: tasks with a
    free-text status, project payloads as `GET /projects/` and
    `GET /projects/{id}` return them. */
module Domain {
  import opened Results

  /** A task status. The backend keeps the status as an unchecked string
      (`dashboard-backend/main.py:122`); the five values the pages know get
      their own constructors and every other string is `Other`. */
  datatype Status =
    | Pending
    | InProgress
    | WaitingForApproval
    | Completed
    | Blocked
    | Other(text: string)

  /** The literal string a status travels as, compared bit for bit by the pages. */
  function Label(s: Status): string
  {
    match s
    case Pending => "Pending"
    case InProgress => "In Progress"
    case WaitingForApproval => "Waiting for Approval"
    case Completed => "Completed"
    case Blocked => "Blocked"
    case Other(text) => text
  }

  /** The five status strings, in the order the status drop-down lists them. */
  const KnownLabels: seq<string> :=
    ["Pending", "In Progress", "Waiting for Approval", "Completed", "Blocked"]

  /** A status in normal form: `Other` is only used for strings outside the five. */
  predicate Canonical(s: Status)
  {
    s.Other? ==> s.text !in KnownLabels
  }

  /** Reads a status string; every string is accepted, as the backend accepts it. */
  function Parse(text: string): (s: Status)
    ensures Label(s) == text
    ensures Canonical(s)
    ensures s.Other? <==> text !in KnownLabels
  {
    if text == "Pending" then Pending
    else if text == "In Progress" then InProgress
    else if text == "Waiting for Approval" then WaitingForApproval
    else if text == "Completed" then Completed
    else if text == "Blocked" then Blocked
    else Other(text)
  }

  /** Parsing a label gives back the status it came from, and two canonical
      statuses with the same label are equal. */
  lemma ParseLabel(s: Status, t: Status)
    requires Canonical(s) && Canonical(t)
    ensures Parse(Label(s)) == s
    ensures Label(s) == Label(t) ==> s == t
  {
  }

  /** A task row, with the columns of `dashboard-backend/models.py` that the
      pages read; `who`/`what`/`when`/`how` are nullable free text. */
  datatype Task = Task(
    id: int,
    name: string,
    status: Status,
    role: string,
    who: Option<string>,
    what: Option<string>,
    when: Option<string>,
    how: Option<string>)

  /** A project as the project routes return it: id, name and its tasks in order. */
  datatype ProjectPayload = ProjectPayload(id: int, name: string, tasks: seq<Task>)
}

=== FILE: my_tasks_page.dfy ===
/** The "My Tasks" page (`Tasks.jsx`): per project, the tasks worth showing
    (in progress, or the current task), a pending tally, and a per-project
    expand flag. */
module MyTasksPage {
  import opened Results
  import opened Domain
  import opened Seqs
  import opened TaskViews

  /** One group of the `/my-tasks` payload. */
  datatype TaskGroup = TaskGroup(projectId: int, projectName: string, tasks: seq<Task>)

  /** `currentTask?.id ?? -1`. */
  function CurrentId(ts: seq<Task>): int
  {
    match CurrentTask(ts)
    case None => -1
    case Some(t) => t.id
  }

  /** `task.status === "In Progress" || task.id === (currentTask?.id ?? -1)`. */
  function Shown(ts: seq<Task>): Task -> bool
  {
    (t: Task) => Label(t.status) == "In Progress" || t.id == CurrentId(ts)
  }

  /** `filteredTasks`: an order-preserving selection of the group's tasks, each
      in progress or carrying the current task's id, and always holding the
      current task when there is one. */
  function FilteredTasks(ts: seq<Task>): (r: seq<Task>)
    ensures |r| <= |ts|
    ensures forall t :: t in r ==> t in ts
    ensures forall t :: t in r ==> Label(t.status) == "In Progress" || t.id == CurrentId(ts)
    ensures forall t :: t in ts && Label(t.status) == "In Progress" ==> t in r
    ensures forall t :: t in ts && t.id == CurrentId(ts) ==> t in r
    ensures CurrentTask(ts).Some? ==> CurrentTask(ts).value in r
  {
    Filter(Shown(ts), ts)
  }

  /** The filter keeps the payload's order. */
  lemma FilteredKeepsOrder(ts: seq<Task>)
    ensures IsSubsequence(FilteredTasks(ts), ts)
  {
    FilterIsSubsequence(Shown(ts), ts);
  }

  /** Task ids are never negative (the database hands out positive ids). */
  ghost predicate NonNegativeIds(ts: seq<Task>)
  {
    forall i :: 0 <= i < |ts| ==> ts[i].id >= 0
  }

  /** A group is skipped (nothing to show) exactly when all its tasks are
      completed, the empty group included. The "skipped" direction needs
      non-negative ids: the `-1` stand-in for "no current task" would
      otherwise match a completed task with id -1. */
  lemma SkippedIffAllCompleted(ts: seq<Task>)
    requires NonNegativeIds(ts)
    ensures |FilteredTasks(ts)| == 0 <==> forall i :: 0 <= i < |ts| ==> IsCompleted(ts[i])
  {
    if forall i :: 0 <= i < |ts| ==> IsCompleted(ts[i]) {
      assert CurrentId(ts) == -1;
      FilterNone(Shown(ts), ts);
    } else {
      assert CurrentTask(ts).value in FilteredTasks(ts);
    }
  }

  /** Without non-negative ids the skip rule breaks: a group holding only a
      completed task with id -1 is shown, since the task matches the `-1`
      stand-in for "no current task". */
  lemma NegativeIdGroupIsShown(t: Task)
    requires IsCompleted(t) && t.id == -1
    ensures forall i :: 0 <= i < |[t]| ==> IsCompleted([t][i])
    ensures FilteredTasks([t]) == [t]
  {
    assert CurrentId([t]) == -1;
    assert [t][1..] == [];
  }

  /** What the page renders for a group it does not skip. */
  datatype GroupCard = GroupCard(projectId: int, projectName: string, shown: seq<Task>, pendingCount: nat, total: nat)

  /** The card for one group: titled and keyed by its project, with
      `pendingCount` of `tasks.length` pending. */
  function CardOf(g: TaskGroup): (c: GroupCard)
    ensures c.projectId == g.projectId && c.projectName == g.projectName
    ensures c.pendingCount == |g.tasks| - CompletedCount(g.tasks)
    ensures c.pendingCount <= c.total == |g.tasks|
    ensures c.shown == FilteredTasks(g.tasks)
  {
    GroupCard(g.projectId, g.projectName, FilteredTasks(g.tasks), OpenCount(g.tasks), |g.tasks|)
  }

  /** The group has something to show. */
  predicate HasShownTasks(g: TaskGroup)
  {
    |FilteredTasks(g.tasks)| > 0
  }

  /** The cards of the page, groups with nothing to show skipped, order kept. */
  function Cards(groups: seq<TaskGroup>): (r: seq<GroupCard>)
    ensures |r| <= |groups|
    ensures forall c :: c in r ==> |c.shown| > 0
    ensures forall g :: g in groups && HasShownTasks(g) ==> CardOf(g) in r
    ensures forall c :: c in r ==> exists g :: g in groups && HasShownTasks(g) && c == CardOf(g)
    decreases |groups|
  {
    if |groups| == 0 then []
    else if HasShownTasks(groups[0]) then [CardOf(groups[0])] + Cards(groups[1..])
    else Cards(groups[1..])
  }

  /** The card of each group, one per group, in order. */
  function CardsOf(groups: seq<TaskGroup>): (r: seq<GroupCard>)
    ensures |r| == |groups|
    ensures forall i :: 0 <= i < |groups| ==> r[i] == CardOf(groups[i])
  {
    seq(|groups|, i requires 0 <= i < |groups| => CardOf(groups[i]))
  }

  /** The page's cards are the cards of the groups with something to show,
      in the order the groups came. */
  lemma {:induction false} CardsKeepOrder(groups: seq<TaskGroup>)
    ensures Cards(groups) == CardsOf(Filter(HasShownTasks, groups))
    decreases |groups|
  {
    if |groups| > 0 {
      CardsKeepOrder(groups[1..]);
      FilterUnfold(HasShownTasks, groups);
      if HasShownTasks(groups[0]) {
        CardsOfCons(groups[0], Filter(HasShownTasks, groups[1..]));
      }
    }
  }

  /** The cards of a group list with one more group in front. */
  lemma CardsOfCons(g: TaskGroup, rest: seq<TaskGroup>)
    ensures CardsOf([g] + rest) == [CardOf(g)] + CardsOf(rest)
  {
    var gs := [g] + rest;
    var l := CardsOf(gs);
    var r := [CardOf(g)] + CardsOf(rest);
    forall i | 0 <= i < |l|
      ensures l[i] == r[i]
    {
      if i > 0 {
        assert gs[i] == rest[i - 1];
      }
    }
  }

  /** `toggleExpand(projectId)`: the project's flag (missing reads as false) is
      negated; every other project's entry is left as it was. */
  function ToggleExpand(expanded: map<int, bool>, projectId: int): (r: map<int, bool>)
    ensures projectId in r && r[projectId] == !(projectId in expanded && expanded[projectId])
    ensures r.Keys == expanded.Keys + {projectId}
    ensures forall p :: p in expanded && p != projectId ==> r[p] == expanded[p]
  {
    var prev := projectId in expanded && expanded[projectId];
    expanded[projectId := !prev]
  }

  /** Toggling the same project twice restores its flag, as a boolean, and
      touches no other project. */
  lemma ToggleTwice(expanded: map<int, bool>, projectId: int)
    ensures var twice := ToggleExpand(ToggleExpand(expanded, projectId), projectId);
      twice[projectId] == (projectId in expanded && expanded[projectId])
      && forall p :: p in expanded && p != projectId ==> twice[p] == expanded[p]
  {
  }
}

=== FILE: notifications_page.dfy ===
/** The notification feed (`Notifications.jsx`): a fetched list from which a
    successful DELETE removes the entry locally, without a re-fetch. */
module NotificationsPage {
  import opened Seqs

  datatype Notification = Notification(id: int, message: string)

  /** `n.id !== id`. */
  function Keeps(id: int): Notification -> bool
  {
    (n: Notification) => n.id != id
  }

  /** `n.id === id`. */
  function Matches(id: int): Notification -> bool
  {
    (n: Notification) => n.id == id
  }

  /** `prev.filter(n => n.id !== id)`: no entry with the id remains, every
      other entry stays, and the list shrinks by the number of matches. */
  function WithoutId(ns: seq<Notification>, id: int): (r: seq<Notification>)
    ensures forall n :: n in r ==> n.id != id && n in ns
    ensures forall n :: n in ns && n.id != id ==> n in r
    ensures |r| == |ns| - Count(Matches(id), ns)
  {
    CountComplement(Matches(id), ns);
    FilterExt(Not(Matches(id)), Keeps(id), ns);
    Filter(Keeps(id), ns)
  }

  /** The remaining entries keep their relative order. */
  lemma WithoutIdKeepsOrder(ns: seq<Notification>, id: int)
    ensures IsSubsequence(WithoutId(ns, id), ns)
  {
    FilterIsSubsequence(Keeps(id), ns);
  }

  /** Removing an id nobody carries changes nothing; removing twice is removing once. */
  lemma WithoutIdIdempotent(ns: seq<Notification>, id: int)
    ensures (forall i :: 0 <= i < |ns| ==> ns[i].id != id) ==> WithoutId(ns, id) == ns
    ensures WithoutId(WithoutId(ns, id), id) == WithoutId(ns, id)
  {
    if forall i :: 0 <= i < |ns| ==> ns[i].id != id {
      FilterAll(Keeps(id), ns);
    }
    FilterIdempotent(Keeps(id), ns);
  }

  /** With unique ids, removing a present id drops exactly one entry. */
  lemma WithoutPresentUniqueId(ns: seq<Notification>, k: nat)
    requires k < |ns|
    requires forall i, j :: 0 <= i < j < |ns| ==> ns[i].id != ns[j].id
    ensures |WithoutId(ns, ns[k].id)| == |ns| - 1
  {
    var id := ns[k].id;
    assert ns[k] in Filter(Matches(id), ns);
    MatchesAreDistinct(ns, id);
  }

  /** The matches of an id in a list with unique ids are distinct entries. */
  lemma {:induction false} MatchesAreDistinct(ns: seq<Notification>, id: int)
    requires forall i, j :: 0 <= i < j < |ns| ==> ns[i].id != ns[j].id
    ensures |Filter(Matches(id), ns)| <= 1
    decreases |ns|
  {
    if |ns| > 0 {
      MatchesAreDistinct(ns[1..], id);
      if ns[0].id == id {
        FilterNone(Matches(id), ns[1..]);
      }
    }
  }

  /** `handleDelete`: after a successful DELETE the entry is dropped locally;
      after a failed one the list is left as it was. */
  function HandleDelete(ns: seq<Notification>, id: int, deleted: bool): (r: seq<Notification>)
    ensures !deleted ==> r == ns
    ensures deleted ==> forall n :: n in r ==> n.id != id
    ensures deleted ==> forall n :: n in ns && n.id != id ==> n in r
    ensures deleted ==> forall n :: n in r ==> n in ns
    ensures deleted ==> IsSubsequence(r, ns) && |r| == |ns| - Count(Matches(id), ns)
  {
    if deleted then WithoutIdKeepsOrder(ns, id); WithoutId(ns, id) else ns
  }

  /** The worked example: deleting id 3 from entries 3 and 5 leaves entry 5. */
  lemma DeleteExample(a: Notification, b: Notification)
    requires a.id == 3 && b.id == 5
    ensures HandleDelete([a, b], 3, true) == [b]
  {
    assert [a, b][1..] == [b];
    assert [b][1..] == [];
  }
}

=== FILE: project_details_page.dfy ===
/** The project page (`ProjectDetails.jsx`): the fetched project with its
    current task, and the per-task status drop-down that writes through the
    backend and then reloads the whole project. */
module ProjectDetailsPage {
  import opened Results
  import opened Domain
  import opened Seqs
  import opened TaskViews
  import ProjectsPage

  /** The values of the status drop-down, in display order. */
  const StatusOptions: seq<string> :=
    ["Pending", "In Progress", "Waiting for Approval", "Completed", "Blocked"]

  /** The drop-down offers exactly the five known status strings, each once,
      and each names a status other than `Other`. */
  lemma StatusOptionsAreTheFive()
    ensures StatusOptions == KnownLabels
    ensures |StatusOptions| == 5
    ensures forall i, j :: 0 <= i < j < |StatusOptions| ==> StatusOptions[i] != StatusOptions[j]
    ensures forall i :: 0 <= i < |StatusOptions| ==> !Parse(StatusOptions[i]).Other?
    ensures Parse(StatusOptions[0]) == Pending && Parse(StatusOptions[1]) == InProgress
    ensures Parse(StatusOptions[2]) == WaitingForApproval && Parse(StatusOptions[3]) == Completed
    ensures Parse(StatusOptions[4]) == Blocked
  {
  }

  /** The project as the page keeps it: `currentTask` is `None` where the
      page shows "All tasks completed!", which no task name can be confused with. */
  datatype DetailView = DetailView(id: int, name: string, tasks: seq<Task>, currentTask: Option<string>)

  /** Whether the page is still showing "Loading...", and the project once fetched. */
  datatype DetailsState = DetailsState(project: Option<DetailView>, loading: bool)

  /** The state before the first fetch completes. */
  const Initial := DetailsState(None, true)

  /** The view `fetchProject` builds from a payload: the tasks kept as they
      came, and the first name among the tasks that are not completed. */
  function ViewOf(p: ProjectPayload): (v: DetailView)
    ensures v.id == p.id && v.name == p.name && v.tasks == p.tasks
    ensures v.currentTask.None? <==> forall i :: 0 <= i < |p.tasks| ==> IsCompleted(p.tasks[i])
  {
    var pending := Filter(IsOpen, p.tasks);
    FilterEmptyIff(IsOpen, p.tasks);
    DetailView(p.id, p.name, p.tasks, if |pending| > 0 then Some(pending[0].name) else None)
  }

  /** The page's "first of the filtered tasks" is the `find` of the other pages:
      it names the first task in list order that is not completed. */
  lemma ViewCurrentIsFirstOpen(p: ProjectPayload)
    ensures ViewOf(p).currentTask ==
      (match CurrentTask(p.tasks) case None => None case Some(t) => Some(t.name))
    ensures ViewOf(p).currentTask == ProjectsPage.CardOf(p).currentTask
  {
    FindIsFilterHead(IsOpen, p.tasks);
  }

  /** `fetchProject` with the outcome of the GET: on success the view is
      rebuilt from the payload and loading ends; on failure nothing changes. */
  function FetchProject(st: DetailsState, response: Option<ProjectPayload>): (r: DetailsState)
    ensures response.None? ==> r == st
    ensures response.Some? ==> !r.loading && r.project.Some? && r.project.value.tasks == response.value.tasks
    ensures !r.loading ==> !st.loading || response.Some?
  {
    match response
    case None => st
    case Some(p) => DetailsState(Some(ViewOf(p)), false)
  }

  /** A run of fetches, one outcome per fetch, from left to right. */
  function FetchAll(st: DetailsState, responses: seq<Option<ProjectPayload>>): DetailsState
    decreases |responses|
  {
    if |responses| == 0 then st
    else FetchAll(FetchProject(st, responses[0]), responses[1..])
  }

  /** The page stops loading exactly when some fetch has succeeded (failures
      change nothing), and then shows the view of the last successful payload. */
  lemma {:induction false} LoadingEndsOnlyOnSuccess(st: DetailsState, responses: seq<Option<ProjectPayload>>)
    ensures FetchAll(st, responses).loading <==>
      st.loading && forall i :: 0 <= i < |responses| ==> responses[i].None?
    ensures (forall i :: 0 <= i < |responses| ==> responses[i].None?) ==> FetchAll(st, responses) == st
    ensures forall k ::
      (0 <= k < |responses| && responses[k].Some? && forall i :: k < i < |responses| ==> responses[i].None?) ==>
      FetchAll(st, responses).project == Some(ViewOf(responses[k].value))
    decreases |responses|
  {
    if |responses| > 0 {
      var next := FetchProject(st, responses[0]);
      LoadingEndsOnlyOnSuccess(next, responses[1..]);
      forall k | 0 <= k < |responses| && responses[k].Some?
        && (forall i :: k < i < |responses| ==> responses[i].None?)
        ensures FetchAll(st, responses).project == Some(ViewOf(responses[k].value))
      {
        if k > 0 {
          assert responses[1..][k - 1] == responses[k];
          assert forall i :: k - 1 < i < |responses| - 1 ==> responses[1..][i] == responses[i + 1];
        } else {
          assert forall i :: 0 <= i < |responses| - 1 ==> responses[1..][i] == responses[i + 1];
        }
      }
    }
  }

  /** Opening the page: "Loading..." stays up, with no project, until the
      first fetch that succeeds. */
  lemma OpeningThePage(responses: seq<Option<ProjectPayload>>)
    ensures FetchAll(Initial, responses).loading <==> forall i :: 0 <= i < |responses| ==> responses[i].None?
    ensures FetchAll(Initial, responses).loading ==> FetchAll(Initial, responses).project.None?
  {
    LoadingEndsOnlyOnSuccess(Initial, responses);
  }

  /** The PATCH a status change sends: the chosen string is forwarded as is. */
  datatype StatusPatch = StatusPatch(taskId: int, status: string)

  /** The state after a status change, the PATCH it sent, and whether it reloaded. */
  datatype ChangeStep = ChangeStep(state: DetailsState, patch: StatusPatch, reloaded: bool)

  /** `handleStatusChange`: `patched` is whether the PATCH succeeded and
      `reload` the outcome of the GET issued only after it did. */
  function HandleStatusChange(st: DetailsState, taskId: int, newStatus: string, patched: bool,
                              reload: Option<ProjectPayload>): (r: ChangeStep)
    ensures r.patch == StatusPatch(taskId, newStatus)
    ensures r.reloaded <==> patched
    ensures !patched ==> r.state == st
    ensures patched && reload.Some? ==> r.state == DetailsState(Some(ViewOf(reload.value)), false)
    ensures patched && reload.None? ==> r.state == st
  {
    if patched then ChangeStep(FetchProject(st, reload), StatusPatch(taskId, newStatus), true)
    else ChangeStep(st, StatusPatch(taskId, newStatus), false)
  }

  /** A successful change is reload-on-write: the shown project depends only on
      the reloaded payload, never on the local copy it replaces. */
  lemma ChangeNeverPatchesLocally(st1: DetailsState, st2: DetailsState, taskId: int, newStatus: string,
                                  reload: ProjectPayload)
    ensures HandleStatusChange(st1, taskId, newStatus, true, Some(reload)).state
         == HandleStatusChange(st2, taskId, newStatus, true, Some(reload)).state
    ensures HandleStatusChange(st1, taskId, newStatus, true, Some(reload)).state.project.value.tasks
         == reload.tasks
  {
  }
}

=== FILE: projects_page.dfy ===
/** The project list page (`Projects.jsx`): one card per project with its
    current task and completion percentage, and the "Add Project" form. */
module ProjectsPage {
  import opened Results
  import opened Domain
  import opened Seqs
  import opened TaskViews

  /** A project card: `None` as the current task is displayed as "All Completed". */
  datatype Card = Card(id: int, name: string, currentTask: Option<string>, progress: nat)

  /** The card the page renders for one project. */
  function CardOf(p: ProjectPayload): (c: Card)
    ensures c.id == p.id && c.name == p.name
    ensures c.progress == Progress(p.tasks)
    ensures c.currentTask.None? <==> forall i :: 0 <= i < |p.tasks| ==> IsCompleted(p.tasks[i])
    ensures c.currentTask.Some? ==>
      exists i :: 0 <= i < |p.tasks| && IsOpen(p.tasks[i]) && c.currentTask.value == p.tasks[i].name
        && forall j :: 0 <= j < i ==> IsCompleted(p.tasks[j])
  {
    var current :=
      match CurrentIndex(p.tasks)
      case None => None
      case Some(i) => Some(p.tasks[i].name);
    Card(p.id, p.name, current, Progress(p.tasks))
  }

  /** The characters `String.prototype.trim` removes: the ECMAScript
      WhiteSpace (tab, vertical tab, form feed, no-break space, byte order
      mark and the Unicode space separators) and LineTerminator code points. */
  predicate IsJsSpace(c: char)
  {
    var k := c as int;
    k == 0x09 || k == 0x0A || k == 0x0B || k == 0x0C || k == 0x0D || k == 0x20
    || k == 0xA0 || k == 0x1680 || (0x2000 <= k <= 0x200A) || k == 0x2028
    || k == 0x2029 || k == 0x202F || k == 0x205F || k == 0x3000 || k == 0xFEFF
  }

  /** `s` without its leading white space. */
  function TrimStart(s: string): (r: string)
    ensures |r| <= |s| && r == s[|s| - |r|..]
    ensures forall k :: 0 <= k < |s| - |r| ==> IsJsSpace(s[k])
    ensures |r| > 0 ==> !IsJsSpace(r[0])
  {
    DropWhile(IsJsSpace, s)
  }

  /** `s` without its trailing white space. */
  function TrimEnd(s: string): (r: string)
    ensures |r| <= |s| && r == s[..|r|]
    ensures forall k :: |r| <= k < |s| ==> IsJsSpace(s[k])
    ensures |r| > 0 ==> !IsJsSpace(r[|r| - 1])
  {
    DropLastWhile(IsJsSpace, s)
  }

  /** `s.trim()`: the part of `s` between its leading and its trailing
      white space. */
  function Trim(s: string): (r: string)
    ensures |r| <= |s|
    ensures |r| > 0 ==> !IsJsSpace(r[0]) && !IsJsSpace(r[|r| - 1])
  {
    StripIsSlice(IsJsSpace, s);
    TrimEnd(TrimStart(s))
  }

  /** `trim()` cuts only white space: the result is the slice of `s` that
      starts after its leading white space, and everything after that slice
      is white space too. */
  lemma TrimIsSlice(s: string)
    ensures |s| - |TrimStart(s)| + |Trim(s)| <= |s|
    ensures forall i :: 0 <= i < |Trim(s)| ==> Trim(s)[i] == s[|s| - |TrimStart(s)| + i]
    ensures forall k :: 0 <= k < |s| - |TrimStart(s)| ==> IsJsSpace(s[k])
    ensures forall k :: |s| - |TrimStart(s)| + |Trim(s)| <= k < |s| ==> IsJsSpace(s[k])
  {
    TrimIsSliceOfS(s);
    StripIsSlice(IsJsSpace, s);
  }

  /** The trimmed name, character by character, is the slice of `s` after
      its leading white space. */
  lemma TrimIsSliceOfS(s: string)
    ensures |s| - |TrimStart(s)| + |Trim(s)| <= |s|
    ensures forall i :: 0 <= i < |Trim(s)| ==> Trim(s)[i] == s[|s| - |TrimStart(s)| + i]
  {
    var t := DropWhile(IsJsSpace, s);
    var r := DropLastWhile(IsJsSpace, t);
    assert TrimStart(s) == t && Trim(s) == r;
    SliceBetween(IsJsSpace, s, t, r);
  }

  /** A name trims to the empty string exactly when it is all white space. */
  lemma TrimEmptyIffBlank(s: string)
    ensures Trim(s) == "" <==> forall k :: 0 <= k < |s| ==> IsJsSpace(s[k])
  {
    StripEmptyIff(IsJsSpace, s);
  }

  /** The page's state: the fetched project list and the text in the name box. */
  datatype ProjectsState = ProjectsState(projects: seq<ProjectPayload>, newProjectName: string)

  /** What one click on "Add Project" leaves behind, and the name it posted, if any. */
  datatype AddStep = AddStep(state: ProjectsState, request: Option<string>)

  /** `handleAddProject`. `created` is whether the POST succeeded, `refetched`
      the outcome of the list reload issued after a successful POST. */
  function AddProject(st: ProjectsState, created: bool, refetched: Option<seq<ProjectPayload>>): (r: AddStep)
    ensures r.request.None? <==> forall k :: 0 <= k < |st.newProjectName| ==> IsJsSpace(st.newProjectName[k])
    ensures r.request.Some? ==> r.request.value == st.newProjectName
    ensures r.request.None? || !created ==> r.state == st
    ensures r.request.Some? && created ==> r.state.newProjectName == ""
    ensures r.request.Some? && created && refetched.Some? ==> r.state.projects == refetched.value
    ensures refetched.None? ==> r.state.projects == st.projects
  {
    TrimEmptyIffBlank(st.newProjectName);
    if Trim(st.newProjectName) == "" then AddStep(st, None)
    else if !created then AddStep(st, Some(st.newProjectName))
    else
      var projects := if refetched.Some? then refetched.value else st.projects;
      AddStep(ProjectsState(projects, ""), Some(st.newProjectName))
  }
}

=== FILE: results.dfy ===
/** Failure-carrying wrappers shared by the model: a value that may be absent
    (a request that failed, a search that found nothing) and a value or an
    HTTP error (the backend's `HTTPException` paths). */
module Results {

  /** `None` stands for "nothing there": a failed request, no match, no current task. */
  datatype Option<+T> = None | Some(value: T)

  /** The outcome of a backend route: the value it returns, or the error it raises. */
  datatype Result<+T, +E> = Ok(value: T) | Err(error: E)
}

=== FILE: scenarios.dfy ===
/** End-to-end facts that join the backend routes to the pages: what a new
    project looks like once fetched, and what a status change shows after
    the page reloads. */
module Scenarios {
  import opened Results
  import opened Domain
  import opened Seqs
  import opened TaskViews
  import opened TaskStore
  import ProjectsPage
  import ProjectDetailsPage
  import MyTasksPage

  /** The rows of a newly created project are exactly its fifteen template rows. */
  lemma NewProjectRows(db: Store, name: string)
    requires Wf(db)
    ensures var c := CreateProject(db, name);
      Filter(InProject(c.project.id), c.db.tasks) == DefaultTaskRows(c.project.id, db.nextTaskId)
  {
    var c := CreateProject(db, name);
    var id := c.project.id;
    var rows := DefaultTaskRows(id, db.nextTaskId);
    FilterAppend(InProject(id), db.tasks, rows);
    forall i | 0 <= i < |db.tasks|
      ensures !InProject(id)(db.tasks[i])
    {
      assert db.tasks[i].projectId in ProjectIds(db);
    }
    FilterNone(InProject(id), db.tasks);
    FilterAll(InProject(id), rows);
  }

  /** Fetching a project just created returns its name and the summaries
      of its fifteen template rows. */
  lemma NewProjectPayload(db: Store, name: string)
    requires Wf(db)
    ensures var c := CreateProject(db, name);
      GetProject(c.db, c.project.id)
        == Ok(ProjectPayload(c.project.id, name, Summaries(DefaultTaskRows(c.project.id, db.nextTaskId))))
  {
    var c := CreateProject(db, name);
    NewProjectRows(db, name);
    CreateProjectPreservesWf(db, name);
    assert FindProject(c.db, c.project.id).value == |db.projects|;
  }

  /** A payload whose tasks are all Pending shows 0% and names its first task
      as current, on the list card and on the details page alike. */
  lemma AllPendingViews(p: ProjectPayload)
    requires |p.tasks| > 0
    requires forall i :: 0 <= i < |p.tasks| ==> p.tasks[i].status == Pending
    ensures Progress(p.tasks) == 0
    ensures ProjectsPage.CardOf(p).currentTask == Some(p.tasks[0].name)
    ensures ProjectDetailsPage.ViewOf(p).currentTask == Some(p.tasks[0].name)
  {
    var ts := p.tasks;
    FilterNone(IsCompleted, ts);
    NoneCompletedIsZero(ts);
    FirstOpenIsCurrent(ts);
    ProjectDetailsPage.ViewCurrentIsFirstOpen(p);
  }

  /** A project just created and then fetched has the fifteen template tasks,
      all Pending, shows 0% on every page, and names "Receive Order" as its
      current task on both the list card and the details page. */
  lemma NewProjectStartsAtReceiveOrder(db: Store, name: string)
    requires Wf(db)
    ensures var c := CreateProject(db, name);
      var g := GetProject(c.db, c.project.id);
      && g.Ok?
      && g.value.name == name
      && |g.value.tasks| == 15
      && (forall i :: 0 <= i < 15 ==>
            g.value.tasks[i].name == DefaultSteps[i].name && g.value.tasks[i].status == Pending)
      && Progress(g.value.tasks) == 0
      && ProjectsPage.CardOf(g.value).currentTask == Some("Receive Order")
      && ProjectDetailsPage.ViewOf(g.value).currentTask == Some("Receive Order")
  {
    var c := CreateProject(db, name);
    NewProjectTaskList(db, name);
    var p := GetProject(c.db, c.project.id).value;
    assert p.tasks[0].name == "Receive Order";
    AllPendingViews(p);
  }

  /** The fetched tasks of a new project are the template's steps, all Pending. */
  lemma NewProjectTaskList(db: Store, name: string)
    requires Wf(db)
    ensures var c := CreateProject(db, name);
      var g := GetProject(c.db, c.project.id);
      && g.Ok?
      && g.value.name == name
      && |g.value.tasks| == 15
      && (forall i :: 0 <= i < 15 ==>
            g.value.tasks[i].name == DefaultSteps[i].name && g.value.tasks[i].status == Pending)
  {
    NewProjectPayload(db, name);
  }

  /** In a well-formed store, completing the task stored at `i` rewrites
      that row's status and nothing else. */
  lemma CompletedRow(db: Store, i: nat)
    requires Wf(db)
    requires i < |db.tasks|
    ensures var row := db.tasks[i];
      && UpdateTaskStatus(db, row.task.id, "Completed").Ok?
      && var updated := UpdateTaskStatus(db, row.task.id, "Completed").value;
      && updated.projects == db.projects
      && updated.tasks == db.tasks[i := row.(task := row.task.(status := Completed))]
  {
    var row := db.tasks[i];
    assert row.task.id in TaskIds(db);
    assert FindTask(db, row.task.id).value == i;
  }

  /** Rewriting one row of a project, keeping its project, rewrites exactly
      one entry of that project's payload, at position `j`. */
  lemma PayloadAfterRowUpdate(db: Store, updated: Store, i: nat, done: TaskRow) returns (j: nat)
    requires i < |db.tasks|
    requires db.tasks[i].projectId in ProjectIds(db)
    requires done.projectId == db.tasks[i].projectId
    requires updated.projects == db.projects
    requires updated.tasks == db.tasks[i := done]
    ensures var projectId := done.projectId;
      && GetProject(db, projectId).Ok? && GetProject(updated, projectId).Ok?
      && var before := GetProject(db, projectId).value;
      && j < |before.tasks|
      && before.tasks[j] == Summary(db.tasks[i])
      && GetProject(updated, projectId).value == before.(tasks := before.tasks[j := Summary(done)])
  {
    var projectId := done.projectId;
    var f := InProject(projectId);
    FilterUpdate(f, db.tasks, i, done);
    j := Count(f, db.tasks[..i]);
    var rows := Filter(f, db.tasks);
    assert FindProject(updated, projectId) == FindProject(db, projectId);
    assert GetProject(db, projectId).value.tasks == Summaries(rows);
    assert GetProject(updated, projectId).value.tasks == Summaries(rows[j := done]);
  }

  /** Marking an open task Completed and reloading, as the details page does:
      the page shows the reloaded project, which has exactly one more
      completed task than before and a percentage that has not gone down. */
  lemma CompletingThenReloading(db: Store, i: nat, st: ProjectDetailsPage.DetailsState)
    requires Wf(db)
    requires i < |db.tasks|
    requires IsOpen(db.tasks[i].task)
    ensures var row := db.tasks[i];
      && UpdateTaskStatus(db, row.task.id, "Completed").Ok?
      && var updated := UpdateTaskStatus(db, row.task.id, "Completed").value;
      && GetProject(db, row.projectId).Ok? && GetProject(updated, row.projectId).Ok?
      && var before := GetProject(db, row.projectId).value.tasks;
      && var after := GetProject(updated, row.projectId).value.tasks;
      && var shown := ProjectDetailsPage.HandleStatusChange(st, row.task.id, "Completed", true,
                                                           Some(GetProject(updated, row.projectId).value)).state;
      && !shown.loading
      && shown.project.Some? && shown.project.value.tasks == after
      && |after| == |before|
      && CompletedCount(after) == CompletedCount(before) + 1
      && Progress(after) >= Progress(before)
  {
    var row := db.tasks[i];
    var done := row.(task := row.task.(status := Completed));
    CompletedRow(db, i);
    var updated := UpdateTaskStatus(db, row.task.id, "Completed").value;
    var j := PayloadAfterRowUpdate(db, updated, i, done);
    var before := GetProject(db, row.projectId).value.tasks;
    CompletingNeverLowersProgress(before, j, Summary(done));
  }

  /** Task ids served by the backend are positive, so on the My Tasks page
      the `-1` stand-in for "no current task" never matches a served task,
      and a group of served tasks is skipped exactly when all are completed. */
  lemma ServedIdsArePositive(db: Store, projectId: int)
    requires Wf(db)
    requires GetProject(db, projectId).Ok?
    ensures MyTasksPage.NonNegativeIds(GetProject(db, projectId).value.tasks)
    ensures var ts := GetProject(db, projectId).value.tasks;
      |MyTasksPage.FilteredTasks(ts)| == 0 <==> forall i :: 0 <= i < |ts| ==> IsCompleted(ts[i])
  {
    var ts := GetProject(db, projectId).value.tasks;
    forall i | 0 <= i < |ts|
      ensures ts[i].id >= 0
    {
      assert ts[i] in ts;
    }
    MyTasksPage.SkippedIffAllCompleted(ts);
  }
}

=== FILE: seqs.dfy ===
/** Generic sequence vocabulary used by every page and by the backend:
    JavaScript's `filter`, `filter(...).length` and `find`/`findIndex`,
    with the facts about them the rest of the model relies on. */
module Seqs {
  import opened Results

  /** The elements of `s` that satisfy `f`, in their original order
      (`Array.prototype.filter`). */
  function Filter<T>(f: T -> bool, s: seq<T>): (r: seq<T>)
    ensures |r| <= |s|
    ensures forall x :: x in r ==> x in s && f(x)
    ensures forall x :: x in s && f(x) ==> x in r
    decreases |s|
  {
    if |s| == 0 then []
    else if f(s[0]) then [s[0]] + Filter(f, s[1..])
    else Filter(f, s[1..])
  }

  /** `s.filter(f).length`. */
  function Count<T>(f: T -> bool, s: seq<T>): nat
  {
    |Filter(f, s)|
  }

  /** The index of the first element satisfying `f`, if any (`findIndex`). */
  function Find<T>(f: T -> bool, s: seq<T>): (r: Option<nat>)
    ensures r.None? <==> forall i :: 0 <= i < |s| ==> !f(s[i])
    ensures r.Some? ==> r.value < |s| && f(s[r.value])
    ensures r.Some? ==> forall j :: 0 <= j < r.value ==> !f(s[j])
    decreases |s|
  {
    if |s| == 0 then None
    else if f(s[0]) then Some(0)
    else
      match Find(f, s[1..])
      case None => None
      case Some(k) => Some(k + 1)
  }

  /** The pointwise complement of a test. */
  function Not<T>(f: T -> bool): T -> bool
  {
    x => !f(x)
  }

  /** `a` can be obtained from `b` by deleting elements, keeping the order of the rest. */
  ghost predicate IsSubsequence<T>(a: seq<T>, b: seq<T>)
    decreases |b|
  {
    if |a| == 0 then true
    else if |b| == 0 then false
    else if a[0] == b[0] then IsSubsequence(a[1..], b[1..])
    else IsSubsequence(a, b[1..])
  }

  /** `s` with the element at `k` removed. */
  function RemoveAt<T>(s: seq<T>, k: nat): (r: seq<T>)
    requires k < |s|
    ensures |r| == |s| - 1
    ensures forall i :: 0 <= i < k ==> r[i] == s[i]
    ensures forall i :: k <= i < |r| ==> r[i] == s[i + 1]
  {
    s[..k] + s[k + 1..]
  }

  /** One step of `Count`: the head contributes one exactly when it passes the test. */
  lemma CountCons<T>(f: T -> bool, s: seq<T>)
    requires |s| > 0
    ensures Count(f, s) == (if f(s[0]) then 1 else 0) + Count(f, s[1..])
  {
  }

  /** Filtering distributes over concatenation. */
  lemma {:induction false} FilterAppend<T>(f: T -> bool, a: seq<T>, b: seq<T>)
    ensures Filter(f, a + b) == Filter(f, a) + Filter(f, b)
    decreases |a|
  {
    if |a| == 0 {
      assert a + b == b;
    } else {
      assert (a + b)[1..] == a[1..] + b;
      FilterAppend(f, a[1..], b);
    }
  }

  /** Counting distributes over concatenation. */
  lemma CountAppend<T>(f: T -> bool, a: seq<T>, b: seq<T>)
    ensures Count(f, a + b) == Count(f, a) + Count(f, b)
  {
    FilterAppend(f, a, b);
  }

  /** Two tests that agree on every element of `s` filter it identically. */
  lemma {:induction false} FilterExt<T>(f: T -> bool, g: T -> bool, s: seq<T>)
    requires forall i :: 0 <= i < |s| ==> f(s[i]) == g(s[i])
    ensures Filter(f, s) == Filter(g, s)
    decreases |s|
  {
    if |s| > 0 {
      FilterExt(f, g, s[1..]);
    }
  }

  /** Every element passes: filtering changes nothing. */
  lemma {:induction false} FilterAll<T>(f: T -> bool, s: seq<T>)
    requires forall i :: 0 <= i < |s| ==> f(s[i])
    ensures Filter(f, s) == s
    decreases |s|
  {
    if |s| > 0 {
      FilterAll(f, s[1..]);
      assert [s[0]] + s[1..] == s;
    }
  }

  /** No element passes: the filter is empty. */
  lemma {:induction false} FilterNone<T>(f: T -> bool, s: seq<T>)
    requires forall i :: 0 <= i < |s| ==> !f(s[i])
    ensures Filter(f, s) == []
    decreases |s|
  {
    if |s| > 0 {
      FilterNone(f, s[1..]);
    }
  }

  /** The filter is empty exactly when no element passes. */
  lemma FilterEmptyIff<T>(f: T -> bool, s: seq<T>)
    ensures Filter(f, s) == [] <==> forall i :: 0 <= i < |s| ==> !f(s[i])
  {
    if forall i :: 0 <= i < |s| ==> !f(s[i]) {
      FilterNone(f, s);
    } else {
      var i :| 0 <= i < |s| && f(s[i]);
      assert s[i] in s;
    }
  }

  /** Filtering keeps the order of what it keeps. */
  lemma {:induction false} FilterIsSubsequence<T>(f: T -> bool, s: seq<T>)
    ensures IsSubsequence(Filter(f, s), s)
    decreases |s|
  {
    if |s| > 0 {
      FilterIsSubsequence(f, s[1..]);
      var rest := Filter(f, s[1..]);
      if f(s[0]) {
        assert ([s[0]] + rest)[1..] == rest;
      } else {
        SubsequenceOfTail(rest, s);
      }
    }
  }

  /** A subsequence of the tail is a subsequence of the whole. */
  lemma {:induction false} SubsequenceOfTail<T>(a: seq<T>, b: seq<T>)
    requires |b| > 0
    requires IsSubsequence(a, b[1..])
    ensures IsSubsequence(a, b)
    decreases |b|, |a|
  {
    if |a| > 0 && a[0] == b[0] {
      SubsequenceDropHead(a, b[1..]);
    }
  }

  /** Dropping the first element of a non-empty subsequence keeps it a subsequence. */
  lemma {:induction false} SubsequenceDropHead<T>(a: seq<T>, b: seq<T>)
    requires |a| > 0
    requires IsSubsequence(a, b)
    ensures IsSubsequence(a[1..], b)
    decreases |b|, |a|
  {
    if |b| > 0 {
      if a[0] == b[0] {
        if |a| > 1 {
          SubsequenceOfTail(a[1..], b);
        }
      } else {
        SubsequenceDropHead(a, b[1..]);
        if |a| > 1 {
          SubsequenceOfTail(a[1..], b);
        }
      }
    }
  }

  /** Filtering twice with the same test is filtering once. */
  lemma FilterIdempotent<T>(f: T -> bool, s: seq<T>)
    ensures Filter(f, Filter(f, s)) == Filter(f, s)
  {
    var r := Filter(f, s);
    forall i | 0 <= i < |r|
      ensures f(r[i])
    {
      assert r[i] in r;
    }
    FilterAll(f, r);
  }

  /** The elements passing a test and those failing it partition the sequence. */
  lemma {:induction false} CountComplement<T>(f: T -> bool, s: seq<T>)
    ensures Count(f, s) + Count(Not(f), s) == |s|
    decreases |s|
  {
    if |s| > 0 {
      CountComplement(f, s[1..]);
    }
  }

  /** Replacing one failing element by a passing one adds exactly one to the count. */
  lemma {:induction false} CountUpdateGain<T>(f: T -> bool, s: seq<T>, i: nat, x: T)
    requires i < |s|
    requires !f(s[i]) && f(x)
    ensures Count(f, s[i := x]) == Count(f, s) + 1
    decreases |s|
  {
    if i == 0 {
      assert s[i := x][1..] == s[1..];
    } else {
      assert s[i := x][1..] == s[1..][i - 1 := x];
      CountUpdateGain(f, s[1..], i - 1, x);
    }
  }

  /** The first element of the filter is the element `Find` points at. */
  lemma {:induction false} FindIsFilterHead<T>(f: T -> bool, s: seq<T>)
    ensures Find(f, s).None? <==> |Filter(f, s)| == 0
    ensures Find(f, s).Some? ==> Filter(f, s)[0] == s[Find(f, s).value]
    decreases |s|
  {
    FilterEmptyIff(f, s);
    if |s| > 0 && !f(s[0]) {
      FindIsFilterHead(f, s[1..]);
    }
  }
  /** Removing one element: every survivor came from `s`, every other
      element of `s` survives. */
  lemma RemoveAtMembers<T>(s: seq<T>, k: nat)
    requires k < |s|
    ensures forall x :: x in RemoveAt(s, k) ==> x in s
    ensures forall i :: 0 <= i < |s| && i != k ==> s[i] in RemoveAt(s, k)
  {
    var r := RemoveAt(s, k);
    forall i | 0 <= i < |s| && i != k
      ensures s[i] in r
    {
      if i < k { assert r[i] == s[i]; } else { assert r[i - 1] == s[i]; }
    }
  }

  /** Removing one element keeps every element whose key differs from the
      removed one's. */
  lemma RemoveAtKeepsOtherKeys<T, K>(s: seq<T>, k: nat, key: T -> K)
    requires k < |s|
    ensures forall x :: x in s && key(x) != key(s[k]) ==> x in RemoveAt(s, k)
  {
    RemoveAtMembers(s, k);
    forall x | x in s && key(x) != key(s[k])
      ensures x in RemoveAt(s, k)
    {
      var j :| 0 <= j < |s| && s[j] == x;
      assert j != k;
    }
  }

  /** Removing one element keeps keys distinct, and the removed key, if it
      was unique, is gone. */
  lemma RemoveAtKeepsDistinct<T, K>(s: seq<T>, k: nat, key: T -> K)
    requires k < |s|
    requires forall i, j :: 0 <= i < j < |s| ==> key(s[i]) != key(s[j])
    ensures forall i, j :: 0 <= i < j < |RemoveAt(s, k)| ==> key(RemoveAt(s, k)[i]) != key(RemoveAt(s, k)[j])
    ensures forall i :: 0 <= i < |RemoveAt(s, k)| ==> key(RemoveAt(s, k)[i]) != key(s[k])
  {
    var r := RemoveAt(s, k);
    forall i, j | 0 <= i < j < |r|
      ensures key(r[i]) != key(r[j])
    {
      var i' := if i < k then i else i + 1;
      var j' := if j < k then j else j + 1;
      assert r[i] == s[i'] && r[j] == s[j'];
    }
    forall i | 0 <= i < |r|
      ensures key(r[i]) != key(s[k])
    {
      var i' := if i < k then i else i + 1;
      assert r[i] == s[i'];
    }
  }

  /** Filtering keeps keys distinct. */
  lemma {:induction false} FilterKeepsDistinct<T, K>(f: T -> bool, s: seq<T>, key: T -> K)
    requires forall i, j :: 0 <= i < j < |s| ==> key(s[i]) != key(s[j])
    ensures forall i, j :: 0 <= i < j < |Filter(f, s)| ==> key(Filter(f, s)[i]) != key(Filter(f, s)[j])
    decreases |s|
  {
    if |s| > 0 {
      var tail := Filter(f, s[1..]);
      FilterKeepsDistinct(f, s[1..], key);
      if f(s[0]) {
        forall j | 0 <= j < |tail|
          ensures key(tail[j]) != key(s[0])
        {
          assert tail[j] in s[1..];
        }
      }
    }
  }

  /** Replacing a passing element with another passing one replaces the
      matching entry of the filtered sequence, at the position given by the
      number of passing elements before it. */
  lemma FilterUpdate<T>(f: T -> bool, s: seq<T>, k: nat, x: T)
    requires k < |s|
    requires f(s[k]) && f(x)
    ensures Count(f, s[..k]) < |Filter(f, s)|
    ensures Filter(f, s)[Count(f, s[..k])] == s[k]
    ensures Filter(f, s[k := x]) == Filter(f, s)[Count(f, s[..k]) := x]
  {
    var u := s[k := x];
    assert u[..k] == s[..k] && u[k] == x && u[k + 1..] == s[k + 1..];
    FilterAround(f, s, k);
    FilterAround(f, u, k);
    ReplaceMiddle(Filter(f, s[..k]), s[k], x, Filter(f, s[k + 1..]));
  }

  /** Filtering around a passing element: what passes before it, the
      element, what passes after it. */
  lemma FilterAround<T>(f: T -> bool, s: seq<T>, k: nat)
    requires k < |s| && f(s[k])
    ensures Filter(f, s) == Filter(f, s[..k]) + [s[k]] + Filter(f, s[k + 1..])
  {
    var rest := [s[k]] + s[k + 1..];
    SplitAt(s, k);
    FilterAppend(f, s[..k], rest);
    FilterUnfold(f, rest);
  }

  /** A sequence is its prefix, the element at the cut, and its suffix. */
  lemma SplitAt<T>(s: seq<T>, k: nat)
    requires k < |s|
    ensures s == s[..k] + ([s[k]] + s[k + 1..])
    ensures ([s[k]] + s[k + 1..])[0] == s[k]
    ensures ([s[k]] + s[k + 1..])[1..] == s[k + 1..]
  {
  }

  /** `s` without its longest prefix of elements passing `f`. */
  function DropWhile<T>(f: T -> bool, s: seq<T>): (r: seq<T>)
    ensures |r| <= |s| && r == s[|s| - |r|..]
    ensures forall k :: 0 <= k < |s| - |r| ==> f(s[k])
    ensures |r| > 0 ==> !f(r[0])
    decreases |s|
  {
    if |s| > 0 && f(s[0]) then DropWhile(f, s[1..]) else s
  }

  /** `s` without its longest suffix of elements passing `f`. */
  function DropLastWhile<T>(f: T -> bool, s: seq<T>): (r: seq<T>)
    ensures |r| <= |s| && r == s[..|r|]
    ensures forall k :: |r| <= k < |s| ==> f(s[k])
    ensures |r| > 0 ==> !f(r[|r| - 1])
    decreases |s|
  {
    if |s| > 0 && f(s[|s| - 1]) then DropLastWhile(f, s[..|s| - 1]) else s
  }

  /** Dropping passing elements from both ends leaves the slice of `s` that
      starts after its passing prefix, with only passing elements around it
      and failing elements at both of its ends. */
  lemma StripIsSlice<T>(f: T -> bool, s: seq<T>)
    ensures var t := DropWhile(f, s); var r := DropLastWhile(f, t);
      && |s| - |t| + |r| <= |s|
      && (forall i :: 0 <= i < |r| ==> r[i] == s[|s| - |t| + i])
      && (forall k :: |s| - |t| + |r| <= k < |s| ==> f(s[k]))
      && (|r| > 0 ==> !f(r[0]) && !f(r[|r| - 1]))
  {
    var t := DropWhile(f, s);
    SliceBetween(f, s, t, DropLastWhile(f, t));
  }

  /** `r` is a prefix of the suffix `t` of `s`, followed in `t` only by
      passing elements: then `r` is a slice of `s` followed in `s` only by
      passing elements. */
  lemma SliceBetween<T>(f: T -> bool, s: seq<T>, t: seq<T>, r: seq<T>)
    requires |t| <= |s| && t == s[|s| - |t|..]
    requires |r| <= |t| && r == t[..|r|]
    requires forall k :: |r| <= k < |t| ==> f(t[k])
    ensures |r| > 0 ==> r[0] == t[0]
    ensures forall i :: 0 <= i < |r| ==> r[i] == s[|s| - |t| + i]
    ensures forall k :: |s| - |t| + |r| <= k < |s| ==> f(s[k])
  {
    var a := |s| - |t|;
    forall k | a + |r| <= k < |s|
      ensures f(s[k])
    {
      assert s[k] == t[k - a];
    }
  }

  /** Both ends stripped, nothing is left exactly when every element passes. */
  lemma StripEmptyIff<T>(f: T -> bool, s: seq<T>)
    ensures DropLastWhile(f, DropWhile(f, s)) == [] <==> forall k :: 0 <= k < |s| ==> f(s[k])
  {
    var t := DropWhile(f, s);
    var r := DropLastWhile(f, t);
    if r != [] {
      assert r[0] == t[0] == s[|s| - |t|];
    }
  }

  /** Replacing the middle element of `a + [y] + b`. */
  lemma ReplaceMiddle<T>(a: seq<T>, y: T, x: T, b: seq<T>)
    ensures (a + [y] + b)[|a|] == y
    ensures (a + [y] + b)[|a| := x] == a + [x] + b
  {
  }

  /** One step of `Filter`: the head, if it passes, then the filtered tail. */
  lemma FilterUnfold<T>(f: T -> bool, s: seq<T>)
    requires 0 < |s|
    ensures Filter(f, s) == (if f(s[0]) then [s[0]] else []) + Filter(f, s[1..])
  {
  }
}

=== FILE: task_store.dfy ===
/** The backend's project/task routes (`dashboard-backend/main.py`) over an
    abstract database: tables as sequences in insertion order and one id
    counter per table. Each route is a total function returning the new
    store or the HTTP error it raises. */
module TaskStore {
  import opened Results
  import opened Domain
  import opened Seqs

  /** The `HTTPException`s the routes raise. */
  datatype ApiError = NotFound(detail: string) | BadRequest(detail: string)

  /** The HTTP status code of an error. */
  function StatusCode(e: ApiError): nat
  {
    match e
    case NotFound(_) => 404
    case BadRequest(_) => 400
  }

  /** A row of the `projects` table. */
  datatype ProjectRow = ProjectRow(
    id: int,
    name: string,
    address: Option<string>,
    clientName: Option<string>,
    clientEmail: Option<string>,
    clientPhone: Option<string>,
    drawingNumber: Option<string>,
    drawingVersion: Option<string>)

  /** A row of the `tasks` table: the task and its foreign keys. */
  datatype TaskRow = TaskRow(task: Task, projectId: int, userId: Option<int>)

  /** A row of the `users` table; the password hash is computed outside the model. */
  datatype UserRow = UserRow(id: int, username: string, passwordHash: string, role: string)

  /** The database. Each counter is the id the table hands out next. */
  datatype Store = Store(
    projects: seq<ProjectRow>,
    tasks: seq<TaskRow>,
    users: seq<UserRow>,
    nextProjectId: int,
    nextTaskId: int,
    nextUserId: int)

  /** A fresh database. */
  const EmptyStore := Store([], [], [], 1, 1, 1)

  function ProjectIds(db: Store): set<int>
  {
    set p | p in db.projects :: p.id
  }

  function TaskIds(db: Store): set<int>
  {
    set r | r in db.tasks :: r.task.id
  }

  function Usernames(db: Store): set<string>
  {
    set u | u in db.users :: u.username
  }

  /** The store invariant: primary keys are unique, positive and below their
      counter, usernames are unique (the `unique=True` column), and every
      task belongs to an existing project. */
  ghost predicate Wf(db: Store)
  {
    && 1 <= db.nextProjectId && 1 <= db.nextTaskId && 1 <= db.nextUserId
    && (forall i, j :: 0 <= i < j < |db.projects| ==> db.projects[i].id != db.projects[j].id)
    && (forall i :: 0 <= i < |db.projects| ==> 1 <= db.projects[i].id < db.nextProjectId)
    && (forall i, j :: 0 <= i < j < |db.tasks| ==> db.tasks[i].task.id != db.tasks[j].task.id)
    && (forall i :: 0 <= i < |db.tasks| ==> 1 <= db.tasks[i].task.id < db.nextTaskId)
    && (forall i :: 0 <= i < |db.tasks| ==> db.tasks[i].projectId in ProjectIds(db))
    && (forall i, j :: 0 <= i < j < |db.users| ==> db.users[i].id != db.users[j].id)
    && (forall i, j :: 0 <= i < j < |db.users| ==> db.users[i].username != db.users[j].username)
    && (forall i :: 0 <= i < |db.users| ==> 1 <= db.users[i].id < db.nextUserId)
  }

  /** The fresh database satisfies the invariant. */
  lemma EmptyStoreWf()
    ensures Wf(EmptyStore)
  {
  }

  /** One step of the default template: a task name and the role it goes to. */
  datatype Step = Step(name: string, role: string)

  /** The fifteen steps every new project starts with, in order. */
  const DefaultSteps: seq<Step> := [
    Step("Receive Order", "Project Coordinator"),
    Step("Get Drawing Approved", "Project Engineer"),
    Step("Kick-off Meeting", "Supervisor"),
    Step("Send Electrical Load", "Project Engineer"),
    Step("Prepare Estimation", "Measurement Engineer"),
    Step("Approve Estimation", "Operation Head"),
    Step("Raise PO", "Purchase Coordinator"),
    Step("Approve PO", "Director"),
    Step("Upload RFQ", "Purchase Coordinator"),
    Step("Vendor Follow-ups", "Purchase Coordinator"),
    Step("Prepare Delivery Challan", "Store Coordinator"),
    Step("Receive Material", "Store Coordinator"),
    Step("Upload Invoice", "Purchase Coordinator"),
    Step("Upload Measurement", "Measurement Engineer"),
    Step("Final Approvals", "Operation Head")
  ]

  /** The eight organisational roles, in order of first use by the template. */
  const RoleLabels: seq<string> := [
    "Project Coordinator", "Project Engineer", "Supervisor", "Measurement Engineer",
    "Operation Head", "Purchase Coordinator", "Director", "Store Coordinator"
  ]

  /** The template has fifteen steps starting with "Receive Order", and its
      roles are exactly the eight distinct role labels. */
  lemma TemplateShape()
    ensures |DefaultSteps| == 15
    ensures DefaultSteps[0].name == "Receive Order"
    ensures |RoleLabels| == 8
    ensures forall i, j :: 0 <= i < j < |RoleLabels| ==> RoleLabels[i] != RoleLabels[j]
    ensures forall i :: 0 <= i < |DefaultSteps| ==> DefaultSteps[i].role in RoleLabels
    ensures forall r :: r in RoleLabels ==> exists i :: 0 <= i < |DefaultSteps| && DefaultSteps[i].role == r
  {
    var first := [0, 1, 2, 4, 5, 6, 7, 10];
    forall k | 0 <= k < |RoleLabels|
      ensures 0 <= first[k] < |DefaultSteps| && DefaultSteps[first[k]].role == RoleLabels[k]
    {
    }
  }

  /** The task rows the template produces for a project, ids from `firstId` on. */
  function DefaultTaskRows(projectId: int, firstId: int): (rows: seq<TaskRow>)
    ensures |rows| == |DefaultSteps|
    ensures forall i :: 0 <= i < |rows| ==>
      && rows[i].projectId == projectId
      && rows[i].userId == None
      && rows[i].task.id == firstId + i
      && rows[i].task.name == DefaultSteps[i].name
      && rows[i].task.role == DefaultSteps[i].role
      && rows[i].task.status == Pending
      && rows[i].task.who == None && rows[i].task.what == None
      && rows[i].task.when == None && rows[i].task.how == None
  {
    seq(|DefaultSteps|, i requires 0 <= i < |DefaultSteps| =>
      TaskRow(Task(firstId + i, DefaultSteps[i].name, Pending, DefaultSteps[i].role, None, None, None, None),
              projectId, None))
  }

  /** `generate_default_tasks`: appends the fifteen template tasks, all
      Pending, to the project, leaving every existing row as it was. */
  function GenerateDefaultTasks(db: Store, projectId: int): (r: Store)
    ensures r.projects == db.projects && r.users == db.users
    ensures r.nextProjectId == db.nextProjectId && r.nextUserId == db.nextUserId
    ensures |r.tasks| == |db.tasks| + 15
    ensures r.tasks[..|db.tasks|] == db.tasks
    ensures r.tasks[|db.tasks|..] == DefaultTaskRows(projectId, db.nextTaskId)
    ensures r.nextTaskId == db.nextTaskId + 15
  {
    var rows := DefaultTaskRows(projectId, db.nextTaskId);
    var r := db.(tasks := db.tasks + rows, nextTaskId := db.nextTaskId + |rows|);
    assert r.tasks[..|db.tasks|] == db.tasks;
    assert r.tasks[|db.tasks|..] == rows;
    r
  }

  /** What `create_project` leaves behind: the new store and the project it returns. */
  datatype Created = Created(db: Store, project: ProjectRow)

  /** `create_project`: inserts a project with only its name set, under a
      fresh id, then seeds its default tasks. */
  function CreateProject(db: Store, name: string): (r: Created)
    ensures r.project.id == db.nextProjectId && r.project.name == name
    ensures Wf(db) ==> r.project.id !in ProjectIds(db)
    ensures r.db.projects == db.projects + [r.project]
    ensures r.db.tasks == db.tasks + DefaultTaskRows(r.project.id, db.nextTaskId)
    ensures r.db.users == db.users
    ensures r.db.nextProjectId == db.nextProjectId + 1 && r.db.nextTaskId == db.nextTaskId + 15
      && r.db.nextUserId == db.nextUserId
  {
    var project := ProjectRow(db.nextProjectId, name, None, None, None, None, None, None);
    var withProject := db.(projects := db.projects + [project], nextProjectId := db.nextProjectId + 1);
    Created(GenerateDefaultTasks(withProject, project.id), project)
  }

  /** Creating a project keeps the store invariant. */
  lemma CreateProjectPreservesWf(db: Store, name: string)
    requires Wf(db)
    ensures Wf(CreateProject(db, name).db)
  {
    var c := CreateProject(db, name);
    assert ProjectIds(c.db) == ProjectIds(db) + {c.project.id};
    CreatedTasks(db, name);
    WfIntro(c.db);
  }

  /** The task table after creating a project: old rows, then the template
      rows under fresh, increasing ids, each owned by an old or the new project. */
  lemma CreatedTasks(db: Store, name: string)
    requires Wf(db)
    ensures var c := CreateProject(db, name);
      && (forall i, j :: 0 <= i < j < |c.db.tasks| ==> c.db.tasks[i].task.id != c.db.tasks[j].task.id)
      && (forall i :: 0 <= i < |c.db.tasks| ==> 1 <= c.db.tasks[i].task.id < c.db.nextTaskId)
      && (forall i :: 0 <= i < |c.db.tasks| ==> c.db.tasks[i].projectId in ProjectIds(db) + {c.project.id})
  {
    var c := CreateProject(db, name);
    var n := |db.tasks|;
    var rows := DefaultTaskRows(c.project.id, db.nextTaskId);
    var ts := c.db.tasks;
    assert ts == db.tasks + rows;
    forall i | 0 <= i < |ts|
      ensures i < n ==> ts[i] == db.tasks[i] && ts[i].task.id < db.nextTaskId
      ensures n <= i ==> ts[i] == rows[i - n] && ts[i].task.id == db.nextTaskId + (i - n)
    {
    }
  }

  /** Tests whether a project row has the given project id. */
  function ProjectHasId(projectId: int): ProjectRow -> bool
  {
    (p: ProjectRow) => p.id == projectId
  }

  /** Tests whether a task row has the given task id. */
  function TaskHasId(taskId: int): TaskRow -> bool
  {
    (r: TaskRow) => r.task.id == taskId
  }

  /** Tests whether a task row belongs to the given project. */
  function InProject(projectId: int): TaskRow -> bool
  {
    (r: TaskRow) => r.projectId == projectId
  }

  /** Tests whether a task row belongs to another project. */
  function OutsideProject(projectId: int): TaskRow -> bool
  {
    (r: TaskRow) => r.projectId != projectId
  }

  /** `db.query(Task).filter(Task.id == task_id).first()`, as a position. */
  function FindTask(db: Store, taskId: int): (r: Option<nat>)
    ensures r.None? <==> taskId !in TaskIds(db)
    ensures r.Some? ==> r.value < |db.tasks| && db.tasks[r.value].task.id == taskId
    ensures r.Some? ==> forall j :: 0 <= j < r.value ==> db.tasks[j].task.id != taskId
  {
    var r := Find(TaskHasId(taskId), db.tasks);
    assert r.None? ==> forall t :: t in db.tasks ==> t.task.id != taskId by {
      if r.None? {
        forall t | t in db.tasks
          ensures t.task.id != taskId
        {
          var i :| 0 <= i < |db.tasks| && db.tasks[i] == t;
          assert !TaskHasId(taskId)(db.tasks[i]);
        }
      }
    }
    r
  }

  /** `db.query(Project).filter(Project.id == project_id).first()`, as a position. */
  function FindProject(db: Store, projectId: int): (r: Option<nat>)
    ensures r.None? <==> projectId !in ProjectIds(db)
    ensures r.Some? ==> r.value < |db.projects| && db.projects[r.value].id == projectId
    ensures r.Some? ==> forall j :: 0 <= j < r.value ==> db.projects[j].id != projectId
  {
    var r := Find(ProjectHasId(projectId), db.projects);
    assert r.None? ==> forall p :: p in db.projects ==> p.id != projectId by {
      if r.None? {
        forall p | p in db.projects
          ensures p.id != projectId
        {
          var i :| 0 <= i < |db.projects| && db.projects[i] == p;
          assert !ProjectHasId(projectId)(db.projects[i]);
        }
      }
    }
    r
  }

  /** `update_task_status`: 404 when no task has the id; otherwise the first
      task with the id gets the given string as its status, unchecked, and
      nothing else in the store changes. */
  function UpdateTaskStatus(db: Store, taskId: int, status: string): (r: Result<Store, ApiError>)
    ensures r.Err? <==> taskId !in TaskIds(db)
    ensures r.Err? ==> r.error == NotFound("Task not found") && StatusCode(r.error) == 404
    ensures r.Ok? ==> r.value.projects == db.projects && r.value.users == db.users
    ensures r.Ok? ==>
      r.value.nextProjectId == db.nextProjectId && r.value.nextTaskId == db.nextTaskId && r.value.nextUserId == db.nextUserId
    ensures r.Ok? ==> |r.value.tasks| == |db.tasks|
    ensures r.Ok? ==> (
      && FindTask(db, taskId).Some?
      && var k := FindTask(db, taskId).value;
         && Label(r.value.tasks[k].task.status) == status
         && r.value.tasks[k] == db.tasks[k].(task := db.tasks[k].task.(status := Parse(status)))
         && forall i :: 0 <= i < |db.tasks| && i != k ==> r.value.tasks[i] == db.tasks[i])
  {
    match FindTask(db, taskId)
    case None => Err(NotFound("Task not found"))
    case Some(k) =>
      var row := db.tasks[k];
      Ok(db.(tasks := db.tasks[k := row.(task := row.task.(status := Parse(status)))]))
  }

  /** Updating a status keeps the store invariant; in a well-formed store the
      task with the id is the only one that changes. */
  lemma UpdatePreservesWf(db: Store, taskId: int, status: string)
    requires Wf(db)
    requires UpdateTaskStatus(db, taskId, status).Ok?
    ensures Wf(UpdateTaskStatus(db, taskId, status).value)
    ensures var db' := UpdateTaskStatus(db, taskId, status).value;
      forall i :: 0 <= i < |db.tasks| ==>
        if db.tasks[i].task.id == taskId then Label(db'.tasks[i].task.status) == status
        else db'.tasks[i] == db.tasks[i]
  {
    var db' := UpdateTaskStatus(db, taskId, status).value;
    assert ProjectIds(db') == ProjectIds(db);
  }

  /** The projection the project routes return: id, name, status and role. */
  function Summary(row: TaskRow): (t: Task)
    ensures t.id == row.task.id && t.name == row.task.name
    ensures t.status == row.task.status && t.role == row.task.role
    ensures t.who == None && t.what == None && t.when == None && t.how == None
  {
    row.task.(who := None, what := None, when := None, how := None)
  }

  /** The summaries of a list of rows, in order. */
  function Summaries(rows: seq<TaskRow>): (ts: seq<Task>)
    ensures |ts| == |rows|
    ensures forall i :: 0 <= i < |rows| ==> ts[i] == Summary(rows[i])
  {
    seq(|rows|, i requires 0 <= i < |rows| => Summary(rows[i]))
  }

  /** The payload for a project row: its tasks, in table order, summarised. */
  function PayloadOf(db: Store, p: ProjectRow): (r: ProjectPayload)
    ensures r.id == p.id && r.name == p.name
    ensures |r.tasks| == Count(InProject(p.id), db.tasks)
    ensures r.tasks == Summaries(Filter(InProject(p.id), db.tasks))
    ensures forall t :: t in r.tasks ==> exists row :: row in db.tasks && row.projectId == p.id && t == Summary(row)
    ensures forall row :: row in db.tasks && row.projectId == p.id ==> Summary(row) in r.tasks
  {
    var rows := Filter(InProject(p.id), db.tasks);
    var ts := Summaries(rows);
    assert forall t :: t in ts ==> exists row :: row in rows && t == Summary(row) by {
      forall t | t in ts
        ensures exists row :: row in rows && t == Summary(row)
      {
        var i :| 0 <= i < |ts| && ts[i] == t;
        assert rows[i] in rows;
      }
    }
    assert forall row :: row in rows ==> Summary(row) in ts by {
      forall row | row in rows
        ensures Summary(row) in ts
      {
        var i :| 0 <= i < |rows| && rows[i] == row;
        assert ts[i] == Summary(row);
      }
    }
    ProjectPayload(p.id, p.name, ts)
  }

  /** `get_project`: 404 for an unknown id, otherwise the project's payload. */
  function GetProject(db: Store, projectId: int): (r: Result<ProjectPayload, ApiError>)
    ensures r.Err? <==> projectId !in ProjectIds(db)
    ensures r.Err? ==> r.error == NotFound("Project not found") && StatusCode(r.error) == 404
    ensures r.Ok? ==> (
      && r.value.id == projectId
      && exists p :: p in db.projects && p.id == projectId && r.value.name == p.name)
    ensures r.Ok? ==> |r.value.tasks| == Count(InProject(projectId), db.tasks)
    ensures r.Ok? ==> r.value.tasks == Summaries(Filter(InProject(projectId), db.tasks))
    ensures r.Ok? ==> forall row :: row in db.tasks && row.projectId == projectId ==> Summary(row) in r.value.tasks
    ensures r.Ok? ==> forall t :: t in r.value.tasks ==>
      exists row :: row in db.tasks && row.projectId == projectId && t == Summary(row)
  {
    match FindProject(db, projectId)
    case None => Err(NotFound("Project not found"))
    case Some(k) => Ok(PayloadOf(db, db.projects[k]))
  }

  /** The payload lists the project's tasks in table order: it is an
      order-keeping selection from the summaries of the whole task table. */
  lemma PayloadInTableOrder(db: Store, projectId: int)
    requires GetProject(db, projectId).Ok?
    ensures IsSubsequence(GetProject(db, projectId).value.tasks, Summaries(db.tasks))
  {
    FilterIsSubsequence(InProject(projectId), db.tasks);
    SummariesKeepSubsequence(Filter(InProject(projectId), db.tasks), db.tasks);
  }

  /** Summarising row by row keeps a subsequence a subsequence. */
  lemma {:induction false} SummariesKeepSubsequence(a: seq<TaskRow>, b: seq<TaskRow>)
    requires IsSubsequence(a, b)
    ensures IsSubsequence(Summaries(a), Summaries(b))
    decreases |b|
  {
    if |a| > 0 {
      assert Summaries(b)[1..] == Summaries(b[1..]);
      if a[0] == b[0] {
        SummariesKeepSubsequence(a[1..], b[1..]);
        assert Summaries(a)[1..] == Summaries(a[1..]);
      } else {
        SummariesKeepSubsequence(a, b[1..]);
        SubsequenceOfTail(Summaries(a), Summaries(b));
      }
    }
  }

  /** `read_projects`: one payload per project, in table order. */
  function ListProjects(db: Store): (r: seq<ProjectPayload>)
    ensures |r| == |db.projects|
    ensures forall i :: 0 <= i < |r| ==> r[i].id == db.projects[i].id && r[i].name == db.projects[i].name
  {
    seq(|db.projects|, i requires 0 <= i < |db.projects| => PayloadOf(db, db.projects[i]))
  }

  /** In a well-formed store the list route and the single-project route agree. */
  lemma ListMatchesGet(db: Store, i: nat)
    requires Wf(db)
    requires i < |db.projects|
    ensures GetProject(db, db.projects[i].id) == Ok(ListProjects(db)[i])
  {
    var k := FindProject(db, db.projects[i].id).value;
    assert k == i;
  }

  /** `delete_project`: 404 for an unknown id; otherwise the first project
      with the id goes, and with it every task of that project (the
      relationship's delete-orphan cascade). */
  function DeleteProject(db: Store, projectId: int): (r: Result<Store, ApiError>)
    ensures r.Err? <==> projectId !in ProjectIds(db)
    ensures r.Err? ==> r.error == NotFound("Project not found") && StatusCode(r.error) == 404
    ensures r.Ok? ==> |r.value.projects| == |db.projects| - 1
    ensures r.Ok? ==> forall p :: p in r.value.projects ==> p in db.projects
    ensures r.Ok? ==> forall row :: row in r.value.tasks ==> row in db.tasks && row.projectId != projectId
    ensures r.Ok? ==> forall row :: row in db.tasks && row.projectId != projectId ==> row in r.value.tasks
    ensures r.Ok? ==> (
      && FindProject(db, projectId).Some?
      && r.value.projects == RemoveAt(db.projects, FindProject(db, projectId).value)
      && r.value.tasks == Filter(OutsideProject(projectId), db.tasks))
    ensures r.Ok? ==> r.value.users == db.users
    ensures r.Ok? ==>
      r.value.nextProjectId == db.nextProjectId && r.value.nextTaskId == db.nextTaskId && r.value.nextUserId == db.nextUserId
  {
    match FindProject(db, projectId)
    case None => Err(NotFound("Project not found"))
    case Some(k) =>
      var projects := RemoveAt(db.projects, k);
      assert forall p :: p in projects ==> p in db.projects by {
        forall p | p in projects
          ensures p in db.projects
        {
          var i :| 0 <= i < |projects| && projects[i] == p;
          if i < k { assert db.projects[i] == p; } else { assert db.projects[i + 1] == p; }
        }
      }
      Ok(db.(projects := projects, tasks := Filter(OutsideProject(projectId), db.tasks)))
  }

  /** Deleting a project keeps the store invariant, and afterwards neither the
      project nor any of its tasks is left. */
  lemma DeleteProjectPreservesWf(db: Store, projectId: int)
    requires Wf(db)
    requires DeleteProject(db, projectId).Ok?
    ensures Wf(DeleteProject(db, projectId).value)
    ensures projectId !in ProjectIds(DeleteProject(db, projectId).value)
    ensures forall row :: row in DeleteProject(db, projectId).value.tasks ==> row.projectId != projectId
  {
    var db' := DeleteProject(db, projectId).value;
    RemainingProjects(db, projectId);
    RemainingTasks(db, projectId, ProjectIds(db'));
    WfIntro(db');
  }

  /** The project rows a deletion leaves: distinct ids below the counter,
      and every id but the deleted one. */
  lemma RemainingProjects(db: Store, projectId: int)
    requires Wf(db)
    requires DeleteProject(db, projectId).Ok?
    ensures var projects := DeleteProject(db, projectId).value.projects;
      && (forall i, j :: 0 <= i < j < |projects| ==> projects[i].id != projects[j].id)
      && (forall i :: 0 <= i < |projects| ==> 1 <= projects[i].id < db.nextProjectId)
      && ProjectIds(DeleteProject(db, projectId).value) == ProjectIds(db) - {projectId}
  {
    var k := FindProject(db, projectId).value;
    ProjectRowsAfterRemoval(db.projects, k, db.nextProjectId);
  }

  /** Removing the row at `k` from distinct, bounded project rows leaves
      distinct, bounded rows carrying every id but the removed one. */
  lemma ProjectRowsAfterRemoval(ps: seq<ProjectRow>, k: nat, next: int)
    requires k < |ps|
    requires forall i, j :: 0 <= i < j < |ps| ==> ps[i].id != ps[j].id
    requires forall i :: 0 <= i < |ps| ==> 1 <= ps[i].id < next
    ensures var qs := RemoveAt(ps, k);
      && (forall i, j :: 0 <= i < j < |qs| ==> qs[i].id != qs[j].id)
      && (forall i :: 0 <= i < |qs| ==> 1 <= qs[i].id < next)
      && (set p | p in qs :: p.id) == (set p | p in ps :: p.id) - {ps[k].id}
  {
    var qs := RemoveAt(ps, k);
    RemoveAtKeepsDistinct(ps, k, (p: ProjectRow) => p.id);
    RemoveAtMembers(ps, k);
    forall i | 0 <= i < |qs|
      ensures 1 <= qs[i].id < next
    {
      assert qs[i] in ps;
    }
    forall j | 0 <= j < |ps| && j != k
      ensures ps[j].id in (set p | p in qs :: p.id)
    {
      assert ps[j] in qs;
    }
  }

  /** The task rows a deletion leaves: distinct ids below the counter, none of
      the deleted project, and all owned by a remaining project. */
  lemma RemainingTasks(db: Store, projectId: int, remaining: set<int>)
    requires Wf(db)
    requires DeleteProject(db, projectId).Ok?
    requires remaining == ProjectIds(db) - {projectId}
    ensures var tasks := DeleteProject(db, projectId).value.tasks;
      && (forall i, j :: 0 <= i < j < |tasks| ==> tasks[i].task.id != tasks[j].task.id)
      && (forall i :: 0 <= i < |tasks| ==> 1 <= tasks[i].task.id < db.nextTaskId)
      && (forall i :: 0 <= i < |tasks| ==> tasks[i].projectId in remaining)
  {
    var tasks := DeleteProject(db, projectId).value.tasks;
    FilterKeepsDistinct(OutsideProject(projectId), db.tasks, (r: TaskRow) => r.task.id);
    forall i | 0 <= i < |tasks|
      ensures 1 <= tasks[i].task.id < db.nextTaskId
      ensures tasks[i].projectId in remaining
    {
      assert tasks[i] in db.tasks;
    }
  }

  /** The invariant, conjunct by conjunct. */
  lemma WfIntro(db: Store)
    requires 1 <= db.nextProjectId && 1 <= db.nextTaskId && 1 <= db.nextUserId
    requires forall i, j :: 0 <= i < j < |db.projects| ==> db.projects[i].id != db.projects[j].id
    requires forall i :: 0 <= i < |db.projects| ==> 1 <= db.projects[i].id < db.nextProjectId
    requires forall i, j :: 0 <= i < j < |db.tasks| ==> db.tasks[i].task.id != db.tasks[j].task.id
    requires forall i :: 0 <= i < |db.tasks| ==> 1 <= db.tasks[i].task.id < db.nextTaskId
    requires forall i :: 0 <= i < |db.tasks| ==> db.tasks[i].projectId in ProjectIds(db)
    requires forall i, j :: 0 <= i < j < |db.users| ==> db.users[i].id != db.users[j].id
    requires forall i, j :: 0 <= i < j < |db.users| ==> db.users[i].username != db.users[j].username
    requires forall i :: 0 <= i < |db.users| ==> 1 <= db.users[i].id < db.nextUserId
    ensures Wf(db)
  {
  }

  /** `delete_task`: 404 for an unknown id; otherwise the first task with the
      id is removed and every other row stays, in order. */
  function DeleteTask(db: Store, taskId: int): (r: Result<Store, ApiError>)
    ensures r.Err? <==> taskId !in TaskIds(db)
    ensures r.Err? ==> r.error == NotFound("Task not found") && StatusCode(r.error) == 404
    ensures r.Ok? ==> (
      && FindTask(db, taskId).Some?
      && r.value.tasks == RemoveAt(db.tasks, FindTask(db, taskId).value))
    ensures r.Ok? ==> r.value.projects == db.projects && r.value.users == db.users
    ensures r.Ok? ==> |r.value.tasks| == |db.tasks| - 1
  {
    match FindTask(db, taskId)
    case None => Err(NotFound("Task not found"))
    case Some(k) => Ok(db.(tasks := RemoveAt(db.tasks, k)))
  }

  /** Deleting a task keeps the store invariant, and in a well-formed store no
      task with that id is left while every other task remains. */
  lemma DeleteTaskPreservesWf(db: Store, taskId: int)
    requires Wf(db)
    requires DeleteTask(db, taskId).Ok?
    ensures Wf(DeleteTask(db, taskId).value)
    ensures taskId !in TaskIds(DeleteTask(db, taskId).value)
    ensures forall row :: row in db.tasks && row.task.id != taskId ==> row in DeleteTask(db, taskId).value.tasks
  {
    var db' := DeleteTask(db, taskId).value;
    var k := FindTask(db, taskId).value;
    RowsAfterRemoval(db, k);
    assert ProjectIds(db') == ProjectIds(db);
    WfIntro(db');
  }

  /** The rows left after removing the row at `k` keep the task-row part of
      the invariant, no longer carry that row's id, and include every row
      with another id. */
  lemma RowsAfterRemoval(db: Store, k: nat)
    requires Wf(db)
    requires k < |db.tasks|
    ensures var tasks := RemoveAt(db.tasks, k);
      && (forall i, j :: 0 <= i < j < |tasks| ==> tasks[i].task.id != tasks[j].task.id)
      && (forall i :: 0 <= i < |tasks| ==> 1 <= tasks[i].task.id < db.nextTaskId)
      && (forall i :: 0 <= i < |tasks| ==> tasks[i].projectId in ProjectIds(db))
      && (forall i :: 0 <= i < |tasks| ==> tasks[i].task.id != db.tasks[k].task.id)
      && (forall row :: row in db.tasks && row.task.id != db.tasks[k].task.id ==> row in tasks)
  {
    var tasks := RemoveAt(db.tasks, k);
    RemoveAtKeepsDistinct(db.tasks, k, (r: TaskRow) => r.task.id);
    RemoveAtMembers(db.tasks, k);
    forall i | 0 <= i < |tasks|
      ensures 1 <= tasks[i].task.id < db.nextTaskId
      ensures tasks[i].projectId in ProjectIds(db)
    {
      assert tasks[i] in db.tasks;
    }
    RemoveAtKeepsOtherKeys(db.tasks, k, (r: TaskRow) => r.task.id);
  }

  /** `register`: 400 when the username is taken; otherwise exactly one user
      is added. The password hash is an input: hashing is outside the model. */
  function Register(db: Store, username: string, passwordHash: string, role: string): (r: Result<Store, ApiError>)
    ensures r.Err? <==> username in Usernames(db)
    ensures r.Err? ==> r.error == BadRequest("Username already exists") && StatusCode(r.error) == 400
    ensures r.Ok? ==> |r.value.users| == |db.users| + 1 && r.value.users[..|db.users|] == db.users
    ensures r.Ok? ==> r.value.users[|db.users|].username == username && r.value.users[|db.users|].role == role
    ensures r.Ok? ==> Usernames(r.value) == Usernames(db) + {username}
    ensures r.Ok? ==> r.value.projects == db.projects && r.value.tasks == db.tasks
  {
    if username in Usernames(db) then Err(BadRequest("Username already exists"))
    else
      var user := UserRow(db.nextUserId, username, passwordHash, role);
      var r := db.(users := db.users + [user], nextUserId := db.nextUserId + 1);
      assert r.users[..|db.users|] == db.users;
      Ok(r)
  }

  /** Registering keeps the store invariant, in particular unique usernames. */
  lemma RegisterPreservesWf(db: Store, username: string, passwordHash: string, role: string)
    requires Wf(db)
    requires Register(db, username, passwordHash, role).Ok?
    ensures Wf(Register(db, username, passwordHash, role).value)
    ensures var db' := Register(db, username, passwordHash, role).value;
      forall i :: 0 <= i < |db.users| ==> db'.users[i].id != db'.users[|db.users|].id
  {
    var db' := Register(db, username, passwordHash, role).value;
    var n := |db.users|;
    assert db'.users[..n] == db.users;
    forall i | 0 <= i < n
      ensures db'.users[i] == db.users[i]
      ensures db.users[i].username != username
    {
      assert db.users[i] in db.users;
      assert db'.users[i] == db'.users[..n][i];
    }
    assert db'.users[n].id == db.nextUserId && db'.nextUserId == db.nextUserId + 1;
    WfIntro(db');
  }
}

=== FILE: task_views.dfy ===
/** The derivations every page repeats over a project's ordered task list:
    which tasks are done, the completion percentage, and the current task.
    Stated once here; the page modules use them and prove their own
    formulas agree with them. */
module TaskViews {
  import opened Results
  import opened Domain
  import opened Seqs

  /** `t.status === "Completed"`: the pages compare the status string. */
  predicate IsCompleted(t: Task)
  {
    Label(t.status) == "Completed"
  }

  /** `t.status !== "Completed"`: a task that still needs work. */
  predicate IsOpen(t: Task)
  {
    !IsCompleted(t)
  }

  /** Number of completed tasks. */
  function CompletedCount(ts: seq<Task>): nat
  {
    Count(IsCompleted, ts)
  }

  /** Completed and open tasks partition the list. */
  lemma CountsPartition(ts: seq<Task>)
    ensures CompletedCount(ts) + Count(IsOpen, ts) == |ts|
  {
    CountComplement(IsCompleted, ts);
    FilterExt(Not(IsCompleted), IsOpen, ts);
  }

  /** Number of tasks that are not completed (`pendingCount`, `pendingTasks`). */
  function OpenCount(ts: seq<Task>): (n: nat)
    ensures n == |ts| - CompletedCount(ts)
    ensures n <= |ts|
  {
    CountsPartition(ts);
    Count(IsOpen, ts)
  }

  /** `Math.round(100 * part / whole)` on exact rationals: the nearest integer
      to `100 * part / whole`, halves rounded up. */
  function RoundPercent(part: nat, whole: nat): (r: nat)
    requires 0 < whole
    requires part <= whole
    ensures 2 * whole * r <= 200 * part + whole < 2 * whole * r + 2 * whole
    ensures r <= 100
  {
    RoundBracket(part, whole);
    (200 * part + whole) / (2 * whole)
  }

  /** Multiplying by a factor keeps `<=`. */
  lemma MulMonotone(a: nat, x: nat, y: nat)
    requires x <= y
    ensures a * x <= a * y
  {
  }

  /** The quotient defining `RoundPercent` brackets the rational value and
      never exceeds 100. */
  lemma RoundBracket(part: nat, whole: nat)
    requires 0 < whole && part <= whole
    ensures var q := (200 * part + whole) / (2 * whole);
      2 * whole * q <= 200 * part + whole < 2 * whole * q + 2 * whole && q <= 100
  {
    var q := (200 * part + whole) / (2 * whole);
    assert 2 * whole * q <= 200 * part + whole < 2 * whole * q + 2 * whole;
    if q > 100 {
      MulMonotone(2 * whole, 101, q);
      assert false;
    }
  }

  /** A whole share rounds to 100. */
  lemma RoundWhole(whole: nat)
    requires 0 < whole
    ensures RoundPercent(whole, whole) == 100
  {
    var r := RoundPercent(whole, whole);
    if r < 100 {
      MulMonotone(2 * whole, r + 1, 100);
      assert false;
    }
  }

  /** Below 200, any share short of the whole rounds below 100. */
  lemma RoundShortOfWhole(part: nat, whole: nat)
    requires part < whole < 200
    ensures RoundPercent(part, whole) < 100
  {
    var r := RoundPercent(part, whole);
    assert 2 * whole * r <= 200 * part + whole <= 201 * whole - 200;
    if r == 100 {
      assert false;
    }
  }

  /** From 200 on, one short of the whole already rounds to 100. */
  lemma RoundOneShort(whole: nat)
    requires whole >= 200
    ensures RoundPercent(whole - 1, whole) == 100
  {
    var r := RoundPercent(whole - 1, whole);
    assert 201 * whole - 200 < 2 * whole * r + 2 * whole == 2 * whole * (r + 1);
    if r < 100 {
      MulMonotone(2 * whole, r + 1, 100);
      assert false;
    }
  }

  /** One more completed part never rounds lower. */
  lemma RoundMonotone(part: nat, whole: nat)
    requires part < whole
    ensures RoundPercent(part, whole) <= RoundPercent(part + 1, whole)
  {
    var r := RoundPercent(part, whole);
    var r' := RoundPercent(part + 1, whole);
    if r' < r {
      MulMonotone(2 * whole, r' + 1, r);
      assert false;
    }
  }

  /** The completion percentage a project card shows: 0 for an empty list,
      otherwise the rounded share of completed tasks. */
  function Progress(ts: seq<Task>): (r: nat)
    ensures |ts| == 0 ==> r == 0
    ensures |ts| > 0 ==> 2 * |ts| * r <= 200 * CompletedCount(ts) + |ts| < 2 * |ts| * r + 2 * |ts|
    ensures r <= 100
  {
    if |ts| > 0 then RoundPercent(CompletedCount(ts), |ts|) else 0
  }

  /** The position of the current task: the first task that is not completed. */
  function CurrentIndex(ts: seq<Task>): (r: Option<nat>)
    ensures r.None? <==> forall i :: 0 <= i < |ts| ==> IsCompleted(ts[i])
    ensures r.Some? ==> r.value < |ts| && IsOpen(ts[r.value])
    ensures r.Some? ==> forall j :: 0 <= j < r.value ==> IsCompleted(ts[j])
  {
    Find(IsOpen, ts)
  }

  /** `tasks.find(t => t.status !== "Completed")`. */
  function CurrentTask(ts: seq<Task>): (r: Option<Task>)
    ensures r.None? <==> forall i :: 0 <= i < |ts| ==> IsCompleted(ts[i])
    ensures r.Some? ==> IsOpen(r.value) && r.value in ts
    ensures r.Some? ==> exists i :: (
      && 0 <= i < |ts| && r.value == ts[i] && IsOpen(ts[i])
      && forall j :: 0 <= j < i ==> IsCompleted(ts[j]))
  {
    match CurrentIndex(ts)
    case None => None
    case Some(i) => Some(ts[i])
  }

  /** A list with no completed task shows 0%. */
  lemma NoneCompletedIsZero(ts: seq<Task>)
    requires CompletedCount(ts) == 0
    ensures Progress(ts) == 0
  {
    var r := Progress(ts);
    if r > 0 {
      MulMonotone(2 * |ts|, 1, r);
      assert false;
    }
  }

  /** When the first task is open it is the current task. */
  lemma FirstOpenIsCurrent(ts: seq<Task>)
    requires |ts| > 0 && IsOpen(ts[0])
    ensures CurrentIndex(ts) == Some(0)
    ensures CurrentTask(ts) == Some(ts[0])
  {
  }

  /** A non-empty list whose tasks are all completed shows 100%. */
  lemma AllCompletedIsFull(ts: seq<Task>)
    requires |ts| > 0
    requires forall i :: 0 <= i < |ts| ==> IsCompleted(ts[i])
    ensures Progress(ts) == 100
    ensures CurrentTask(ts) == None
  {
    FilterAll(IsCompleted, ts);
    RoundWhole(|ts|);
  }

  /** Below 200 tasks the percentage reaches 100 exactly when every task is
      completed. */
  lemma FullIffAllCompleted(ts: seq<Task>)
    requires 0 < |ts| < 200
    ensures Progress(ts) == 100 <==> forall i :: 0 <= i < |ts| ==> IsCompleted(ts[i])
  {
    if forall i :: 0 <= i < |ts| ==> IsCompleted(ts[i]) {
      AllCompletedIsFull(ts);
    } else {
      var k :| 0 <= k < |ts| && !IsCompleted(ts[k]);
      assert ts[k] in Filter(IsOpen, ts);
      assert OpenCount(ts) >= 1;
      RoundShortOfWhole(CompletedCount(ts), |ts|);
    }
  }

  /** From 200 tasks on, rounding reaches 100% while one task is still open:
      "100%" on a card does not mean the project is done. */
  lemma FullWithOneOpenTask(ts: seq<Task>)
    requires |ts| >= 200
    requires OpenCount(ts) == 1
    ensures Progress(ts) == 100
    ensures CurrentTask(ts).Some?
  {
    RoundOneShort(|ts|);
    FilterEmptyIff(IsOpen, ts);
  }

  /** Completing one open task, with every other task unchanged, never lowers
      the percentage, and it completes exactly one more task. */
  lemma CompletingNeverLowersProgress(ts: seq<Task>, i: nat, done: Task)
    requires i < |ts|
    requires IsOpen(ts[i]) && IsCompleted(done)
    ensures CompletedCount(ts[i := done]) == CompletedCount(ts) + 1
    ensures Progress(ts[i := done]) >= Progress(ts)
  {
    CountUpdateGain(IsCompleted, ts, i, done);
    RoundMonotone(CompletedCount(ts), |ts|);
  }

  /** The worked example: statuses Pending, In Progress, Completed give 33%
      and the Pending task as the current task. */
  lemma ThreeTaskExample(a: Task, b: Task, c: Task)
    requires a.status == Pending && b.status == InProgress && c.status == Completed
    ensures Progress([a, b, c]) == 33
    ensures CurrentTask([a, b, c]) == Some(a)
  {
    var ts := [a, b, c];
    assert ts[1..] == [b, c] && ts[1..][1..] == [c] && [c][1..] == [];
    CountCons(IsCompleted, ts);
    CountCons(IsCompleted, [b, c]);
    CountCons(IsCompleted, [c]);
    assert CompletedCount(ts) == 1;
  }
}
